=== FILE: README.md ===
# dotrix terrain: chunk cache and ring level of detail, in Dafny

This project models the terrain update of the dotrix engine's editor, plus
the small data structures that update relies on.

The update (`spawn`) runs once per frame:

- It returns straight away unless the viewer has moved at least half a chunk
  since the last update. Distances are compared squared.
- Otherwise it disables every cached chunk.
- It then walks three concentric rings of chunk positions around the viewer's
  chunk-aligned origin. Ring r uses chunks of edge 16·2^r. Ring 0's box
  reaches 2·`view_distance` of its chunk edges from the origin; every later
  ring's box reaches `view_distance` of its own chunk edges beyond the
  previous ring's box, and the ring skips the positions inside that box.
- Every position it visits gets a chunk, created if missing. A chunk that is
  dirty (changed and not hollow) is polygonized. Every visited chunk is enabled.
- Finally every terrain model is hidden unless its chunk is present, enabled
  and has a mesh.

Polygonizing a chunk works as follows:

- Marching cubes samples the density field at the chunk's lattice points.
- An empty surface marks the chunk hollow.
- Otherwise the surface goes into the chunk's mesh, with the ring's texture
  coordinate on every vertex and normals recomputed. A chunk without a mesh
  gets a new mesh in the asset store and a new model entity in the world.

Around this core the project models:

- `Density`: a grid of samples that reads 1.0 until it is set.
- `Lod::scale`: 2^level in `i32`.
- `Octree`: one map per level of detail.
- `Mesh`:
  - vertex packing (`as_static`, `as_skinned`);
  - `indices_count`;
  - the cube fixture;
  - normal calculation face by face, with a 99.9 sentinel;
  - `unload`.
- `HeightMap`:
  - construction, and `from_texture`'s offsets;
  - the integer and float pickers (the float picker swaps the axes).
- `Skin` and `SkinTransform`:
  - inverse bind matrices zipped into the joint index;
  - joint lookup by id;
  - parent-before-child propagation of joint transforms;
  - padding to 32 matrices.

Layout: one module per source file.

| module | file | source |
|---|---|---|
| `Terrains` | `terrain.dfy` | `editor/terrain.rs` |
| `Chunks` | `chunk.dfy` | `editor/terrain/chunk.rs` |
| `Lod` | `lod.dfy` | `editor/lod.rs` |
| `Octrees` | `octree.dfy` | `editor/octree.rs` |
| `TerrainDensity` | `density.dfy` | `dotrix_terrain/src/density.rs` |
| `HeightMaps` | `height_map.dfy` | `dotrix_terrain/src/height_map.rs` |
| `Meshes` | `mesh.dfy` | `dotrix_core/src/assets/mesh.rs` |
| `Skins` | `skin.dfy` | `src/assets/skin.rs` |

Three helper modules support them:

- `Wrappers`: `Option` and `HashMap::get`.
- `Math`: carrier types for vectors and matrices, and the integer widths.
- `Services`: the asset store and the ECS world, reduced to what the terrain
  uses.

How the source's constructs are represented:

- A chunk lives by value in its ring's hash map, so `Chunk` is a datatype.
  `Terrain.rings` is a sequence of maps that the update's methods reassign.
- `Mesh`, `Density`, `Octree`, `SkinTransform`, `Terrain`, the asset store and
  the world are updated in place, so each is a class.
- The update's nested loops are methods with loop invariants:
  - one method per loop (`WalkRings`, `VisitRing`, `VisitPlane`, `VisitRow`);
  - one method per loop body (`VisitCell`, `VisitKey`);
  - each is proved against the `RingPassed` specification of a ring walk.
- `Terrain.Ready` is the invariant every step of the update keeps. Besides
  the ring and store facts, it ties the world to the rings: every terrain
  model draws a chunk that holds its mesh (`Drawn`), and every chunk with a
  mesh has exactly one model (`Modelled`).

## Model

| member | source | states |
|---|---|---|
| Lod.Pow2 | editor/lod.rs:5 | 2^n is at least 1 and even for every positive n |
| Lod.Pow2Monotone | editor/lod.rs:5 | 2^m <= 2^n whenever m <= n |
| Lod.Pow2FitsI32 | editor/lod.rs:5 | 2^n fits in `i32` exactly when n <= 30, so `2_i32.pow` overflows past level 30 |
| Lod.Pow2IsNotNine | editor/terrain/chunk.rs:47-51 | no power of two is 9 |
| Lod.Lod.Scale | editor/lod.rs:4-6 | for levels up to 30 the scale is 2^level, between 1 and `i32::MAX` |
| Lod.ScaleDoubles | editor/lod.rs:4-6 | level 0 has scale 1 and each level doubles the scale of the one before |
| TerrainDensity.Sampled | dotrix_terrain/src/density.rs:30-36 | the collected grid is size_x × size_y × size_z and holds f(x, y, z) at (x, y, z) |
| TerrainDensity.Density.constructor | dotrix_terrain/src/density.rs:18-25 | the sizes are recorded, no grid is set, and every index reads 1.0 |
| TerrainDensity.Density.Value | dotrix_terrain/src/density.rs:40-46 | 1.0 at any index while no grid is set; once one is set, only in-range indices may be read |
| TerrainDensity.Density.Set | dotrix_terrain/src/density.rs:27-38 | the grid is replaced as a whole, so the last `set` wins; it has the recorded dimensions; `value(x, y, z) = f(x, y, z)` at every in-range index; the sizes are constants |
| Meshes.Zip | dotrix_core/src/assets/mesh.rs:25-27 | the zipped list is as long as the shorter input, and pair i is (a[i], b[i]) |
| Meshes.FaceCountOf | dotrix_core/src/assets/mesh.rs:190-193 | the face count is a third of the index count, or of the vertex count without indices, rounded down |
| Meshes.AccumulatedNormals | dotrix_core/src/assets/mesh.rs:189-212 | the buffer holds one normal per vertex after any number of faces |
| Meshes.UnreferencedKeepsSentinel | dotrix_core/src/assets/mesh.rs:189-211 | a vertex that no walked face refers to keeps the sentinel [99.9; 3] |
| Meshes.BlendInPlace | dotrix_core/src/assets/mesh.rs:209-211 | one in-place write: the first normal lands as it is, later ones are interpolated with the old value |
| Meshes.AccumulateFace | dotrix_core/src/assets/mesh.rs:196-211 | one pass of the face loop turns the buffer after f faces into the buffer after f + 1 faces |
| Meshes.ComputeNormals | dotrix_core/src/assets/mesh.rs:189-212 | the loop over faces leaves exactly the accumulated normals over all faces |
| Meshes.CubeIsWellFormed | dotrix_core/src/assets/mesh.rs:83-137 | 24 positions, 24 normals and 24 uvs; 36 indices, each below 24 and inside its own face's four vertices |
| Meshes.Mesh.constructor | dotrix_core/src/assets/mesh.rs:5-15 | `Mesh::default()`: no positions; every optional attribute and both GPU buffers absent |
| Meshes.Mesh.Cube | dotrix_core/src/assets/mesh.rs:83-137 | the cube fixture: positions, normals, uvs and indices present, no weights, joints or buffers, and every index names a vertex |
| Meshes.Mesh.AsStatic | dotrix_core/src/assets/mesh.rs:21-40 | present exactly when normals and uvs both are; then the shortest of the three lengths, with element i packing position, normal and uv i |
| Meshes.Mesh.AsSkinned | dotrix_core/src/assets/mesh.rs:44-74 | present exactly when normals, uvs, weights and joints all are; then the shortest of the five lengths, with element i packing all five attributes of vertex i |
| Meshes.Mesh.IsSkinned | dotrix_core/src/assets/mesh.rs:72-74 | for a mesh that packs as static vertices, `is_skinned` holds exactly when it also packs as skinned vertices; a mesh without the static attributes packs as neither |
| Meshes.Mesh.IndicesCount | dotrix_core/src/assets/mesh.rs:76-81 | the index count, or the vertex count without indices, truncated to `u32` |
| Meshes.Mesh.Calculate | dotrix_core/src/assets/mesh.rs:187-215 | normals are present afterwards; existing normals are left alone whatever the indices, so a second call changes nothing; missing ones become the accumulated normals over all faces |
| Meshes.Mesh.Unload | dotrix_core/src/assets/mesh.rs:217-220 | both GPU buffers become absent and no other field changes |
| Services.Assets.constructor | editor/terrain.rs:57 | the store the update receives starts empty and valid: no meshes, and every id it hands out is non-null |
| Services.World.constructor | editor/terrain.rs:59 | the world the update receives starts with no entities |
| Services.Assets.Store | editor/terrain/chunk.rs:88 | the mesh is stored under a new, non-null id, and every other entry is kept |
| Services.World.Spawn | editor/terrain/chunk.rs:103-105 | the entity is appended and the earlier entities are kept |
| Chunks.SampleCoord | editor/terrain/chunk.rs:47-53 | lattice point (x, y, z) samples position + 2^ring·x on x and position + 2^ring·z on z; y follows the same rule unless the scale is 9 |
| Chunks.SampleCoordIsUniform | editor/terrain/chunk.rs:47-53 | chunk point (x, y, z) samples position + 2^ring·(x, y, z) on all three axes, because the `scale == 9` branch cannot be taken |
| Chunks.RingUv | editor/terrain/chunk.rs:65-70 | ring 0 gets (0, 0), ring 1 gets (1, 0), ring 2 gets (1, 1), and any later ring gets (0, 1) |
| Chunks.RingUvs | editor/terrain/chunk.rs:65-70 | one copy of the ring's uv per position |
| Chunks.Refill | editor/terrain/chunk.rs:72-79 | the existing mesh now holds the surface positions, the ring's uvs and recomputed normals, has no GPU buffers, and keeps its weights and joints |
| Chunks.Filled | editor/terrain/chunk.rs:81-86 | a new mesh with the surface positions, the ring's uvs and computed normals; no indices, weights, joints or buffers |
| Chunks.Chunk.Dirty | editor/terrain.rs:128 | a dirty chunk is never hollow, and every changed chunk that is not hollow is dirty |
| Chunks.Chunk.ToTile | editor/terrain/chunk.rs:112-117 | the tile copies the chunk's position and ring |
| Chunks.Chunk.Polygonize | editor/terrain/chunk.rs:41-110 | (1) an empty surface only sets `hollow`. (2) Otherwise `changed` is cleared, `hollow` and `disabled` are kept, an existing mesh id is kept and its mesh rewritten, and a missing one becomes a fresh stored id. (3) A new mesh also appends one entity: a model at the chunk's position and scale, with the chunk's tile. (4) The store only grows: an empty surface or an existing mesh leaves its keys as they were, an empty surface leaves the chunk's mesh object unchanged, and a new mesh adds exactly one fresh key, holding a mesh without weights or joints; a rewritten mesh keeps its weights and joints |
| Chunks.NewChunk | editor/terrain/chunk.rs:30-39 | the given position and ring, no mesh, changed and not hollow (so dirty), and disabled |
| Chunks.RefreshSettles | editor/terrain.rs:128-133 | visiting a chunk twice with the same density field gives the same chunk: a hollow chunk is never polygonized again, and a polygonized one is clean |
| Terrains.Steps | editor/terrain.rs:106-109 | `step_by` yields values inside [from, to), strictly increasing |
| Terrains.StepsMembers | editor/terrain.rs:106-109 | a value is yielded exactly when it lies in [from, to) and is a whole number of steps from `from` |
| Terrains.RingBoxHalfWidth | editor/terrain.rs:93-143 | ring r's box is the origin widened by a half-width of 2·view_distance·16·2^r on every side: ring 0 by its view extent 2·view_distance·16, ring r > 0 by ring r−1's half-width plus its own view extent view_distance·16·2^r |
| Terrains.VisitsMembers | editor/terrain.rs:106-115 | the loops over a box visit exactly its lattice points outside the skipped box (skipped only for rings past the first) |
| Terrains.RingMembers | editor/terrain.rs:93-143 | ring r visits exactly the points of its box that lie on the 16·2^r lattice through the box's low corner and outside the previous ring's box |
| Terrains.ChunkOrigin | editor/terrain.rs:84-89 | on each axis the origin is the multiple of 16 at or below the viewer, less than 16 below |
| Terrains.SquaredDistance | editor/terrain.rs:65-68 | non-negative, and zero exactly when the two points coincide |
| Terrains.Disabled | editor/terrain.rs:74-78 | the same keys, with every chunk disabled and otherwise unchanged |
| Terrains.Prior | editor/terrain.rs:125-126 | the stored chunk if the key is present, otherwise `Chunk::new(key, r)` |
| Terrains.RefreshedKeepsMesh | editor/terrain.rs:125-133 | a visit keeps the chunk's position, its ring and any mesh id it already has |
| Terrains.Refresh | editor/terrain.rs:128-133 | a dirty chunk is polygonized and a clean one kept; either way it ends enabled. A clean chunk leaves the store, every stored mesh and the world unchanged. A dirty chunk changes no stored mesh but its own. A dirty chunk with a non-empty surface ends with a stored mesh holding that surface. Exactly when the chunk gets its first mesh, one entity is appended: a model of that mesh at the chunk's position and 2^ring scale, with the chunk's tile |
| Terrains.DrawnKept | editor/terrain.rs:146-162 | models keep drawing their chunks while every chunk with a mesh stays in its ring with that mesh |
| Terrains.DrawnVisit | editor/terrain.rs:117-133 | one visit keeps every model drawing its chunk, the one it may add included |
| Terrains.ModelledKept | editor/terrain.rs:73-78 | every meshed chunk keeps exactly one model while meshed chunks stay meshed at their keys and the entities keep their tiles (as disabling the rings and hiding the models do) |
| Terrains.ModelledVisit | editor/terrain/chunk.rs:96-104 | after one visit every meshed chunk still has exactly one model: a chunk that already had a mesh keeps its model, and a chunk that gets its first mesh gets the one model appended for it, which no earlier entity shares a tile with |
| Terrains.HiddenIffUnreached | editor/terrain.rs:73-162 | after disabling every chunk and walking the rings, a model that draws its chunk is hidden exactly when the walk did not reach that chunk |
| Terrains.Terrain.constructor | editor/terrain.rs:26-45 | three empty rings, no last viewer position, threshold (16·0.5)² = 64, view distance 1 |
| Terrains.Terrain.Moved | editor/terrain.rs:64-69 | the first update always runs; later ones run exactly when the squared distance from the last position reaches the threshold, so a viewer standing still never re-triggers it while the threshold is positive |
| Terrains.Terrain.Hidden | editor/terrain.rs:148-161 | a model is hidden exactly when its chunk is missing or disabled, or its mesh is the null id |
| Terrains.Terrain.DisableRing | editor/terrain.rs:75-77 | every chunk of the ring is disabled; nothing else changes |
| Terrains.Terrain.DisableAll | editor/terrain.rs:73-78 | every chunk of every ring is disabled; no chunk is added or removed |
| Terrains.Terrain.VisitKey | editor/terrain.rs:117-133 | exactly one entry changes: the key gets its prior chunk (the stored one, or `Chunk::new`), refreshed and enabled. Other keys and rings are untouched, and no stored mesh but the visited chunk's own changes. Exactly when the chunk gets its first mesh, one entity is appended: a model of that mesh at the key and 2^r scale, with tile (key, r); otherwise the entities are unchanged. Every model still draws its chunk, and every meshed chunk still has exactly one model |
| Terrains.Terrain.VisitCell | editor/terrain.rs:110-133 | a position inside the previous ring's box (rings past the first) is skipped; any other position is visited; models and meshed chunks stay one to one |
| Terrains.Terrain.VisitRow | editor/terrain.rs:109-134 | the innermost loop covers every z of the ring's lattice at fixed x and y; models and meshed chunks stay one to one |
| Terrains.Terrain.VisitPlane | editor/terrain.rs:108-135 | the middle loop covers every y of the ring's lattice at fixed x; models and meshed chunks stay one to one |
| Terrains.Terrain.VisitRing | editor/terrain.rs:106-136 | the ring walk creates, refreshes and enables every position it visits, and leaves every other chunk of the ring as it was; models and meshed chunks stay one to one |
| Terrains.Terrain.WalkRings | editor/terrain.rs:93-144 | every ring is walked over its box, each box the previous one widened by that ring's view extent; models and meshed chunks stay one to one |
| Terrains.Terrain.Hide | editor/terrain.rs:148-161 | only the model's disabled flag changes, and it becomes `Hidden` |
| Terrains.Terrain.HideModels | editor/terrain.rs:146-162 | every entity is kept except its disabled flag, which is set exactly when the model is hidden; every model still draws its chunk |
| Terrains.Terrain.Spawn | editor/terrain.rs:54-164 | (1) Below the threshold (squared distance strictly less) nothing changes; equality triggers an update. (2) Otherwise the last position becomes the viewer. (3) Each ring ends as the walk around the viewer's chunk origin leaves the disabled ring. (4) Existing entities keep all but their disabled flag. (5) Every model, old or new, draws its chunk: its tile names a chunk holding the model's mesh, at the chunk's position and 2^ring scale. (6) Every chunk with a mesh, one meshed in this update included, has exactly one model. (7) A model ends hidden exactly when this update's walk did not reach its chunk. (8) The store only grows. Below the threshold the store, every stored mesh and the world are unchanged |
| Terrains.Terrain.Rebuild | editor/terrain.rs:73-162 | the update after the gate: every ring ends as its walk leaves the disabled ring, every meshed chunk has exactly one model, and every model ends hidden exactly when the walk did not reach its chunk |
| Octrees.Octree.constructor | editor/octree.rs:9-14 | `depth` levels, all empty, and the recorded depth is the argument |
| Octrees.Octree.Load | editor/octree.rs:20-25 | a lookup of the index in its level only: present exactly when stored there, with that node |
| Octrees.Octree.Store | editor/octree.rs:16-18 | requires lod < depth; the node is then loadable at (lod, index); other levels and other keys of that level are unchanged |
| HeightMaps.FloorToUsize | dotrix_terrain/src/height_map.rs:139 | for non-negative f, the n with n <= f < n + 1; negative values saturate to 0 |
| HeightMaps.New | dotrix_terrain/src/height_map.rs:15-23 | size_x rows of size_z zeros |
| HeightMaps.HeightMap.PickHeight | dotrix_terrain/src/height_map.rs:128-130 | the integer picker reads row x, entry z, both in range (the source indexes and panics otherwise) |
| HeightMaps.HeightMap.PickHeightF | dotrix_terrain/src/height_map.rs:136-140 | the float picker reads row ⌊z⌋, entry ⌊x⌋: the axes are swapped, and a negative coordinate reads index 0 |
| HeightMaps.HeightMap.Pick | dotrix_terrain/src/height_map.rs:43-47 | integer coordinates read heights[x][z]; float coordinates read heights[floor z][floor x] |
| HeightMaps.PointIsSwappedCell | dotrix_terrain/src/height_map.rs:136-140 | the float point (a, b) reads the same height as the cell (b, a) |
| HeightMaps.PointFloors | dotrix_terrain/src/height_map.rs:136-140 | every point of the unit square above a cell reads that cell, axes swapped |
| HeightMaps.OffsetInBounds | dotrix_terrain/src/height_map.rs:28-35 | if the last pixel's two bytes exist, every cell's two bytes exist |
| HeightMaps.ReadPixel | dotrix_terrain/src/height_map.rs:33-36 | the two-iteration byte loop accumulates the pixel value at the offset |
| HeightMaps.FromTexture | dotrix_terrain/src/height_map.rs:25-41 | a width × height map whose cell (x, z) holds y_scale times the pixel read at bytes_per_pixel·(x·height + z), with bytes_per_pixel = len / width / height |
| Skins.Joint.Posed | src/assets/skin.rs:30-45 | the joint's id, and the parent matrix times the matrix of the bind transform, merged with the local transform when there is one |
| Skins.Ids | src/assets/skin.rs:79 | one id per item, in order |
| Skins.FirstPosition | src/assets/skin.rs:79 | the first position holding the id: it holds the id, and no earlier one does |
| Skins.NewSkin | src/assets/skin.rs:60-76 | the joints are kept. With matrices given, entry i gets `Some(matrix i)` for i below both lengths, and later entries are unchanged. Without them, the index is exactly as passed |
| Skins.Skin.Index | src/assets/skin.rs:78-80 | the position of the first joint with the id, which must exist |
| Skins.Skin.Propagated | src/assets/skin.rs:89-101 | after n iterations, entries below n carry the ids of joints 0..n and every later entry is untouched. Entries at or past the joint count never change |
| Skins.Skin.PropagatedEntries | src/assets/skin.rs:89-101 | entry i is joint i posed on a parent matrix: the model transform for a root; the parent's new transform when the parent comes earlier; otherwise the value the frame started with |
| Skins.Skin.TransformJoints | src/assets/skin.rs:82-102 | the skin transform's joints become the propagation over all joints, in order |
| Skins.FindById | src/assets/skin.rs:137 | the joint transform found carries the requested id (the first such, by `FirstPosition`) |
| Skins.SkinTransform.constructor | src/assets/skin.rs:112-132 | 32 entries, each with id 0 and the identity matrix |
| Skins.SkinTransform.Matrices | src/assets/skin.rs:134-151 | max(len(index), 32) matrices. Entry i is the global transform of the first joint transform with index i's id, times its inverse bind matrix if it has one. Every padded entry is the identity |

## Left out

Inputs and external code:

- The viewer position is a `Point3` of `f32` in the source, and the threshold
  is an `f32`. The model takes the viewer as an integer point. Its chunk
  origin uses floor division, and its squared distance uses integer
  arithmetic.
- `view_distance`, positions and ring extents are `i32` in the source. The
  model uses unbounded integers and does not model overflow.
- All float and matrix arithmetic is a function parameter with no
  properties. This covers:
  - cross product, normalisation and `lerp` in `calculate`;
  - the `cgmath` matrix product;
  - `Transform::merge` and `Transform::matrix`;
  - the density divided by the scale.
- Marching cubes (`MarchingCubes::polygonize`) is not part of this model. It
  is a parameter mapping the chunk's sampler to the triangle vertex
  positions. Its second result is discarded by the source and is not
  modelled.
- The chunk's density callback (`DensityAt`) is a parameter. The source
  passes `i32` lattice coordinates to `Density::value`, which takes `usize`
  in the shown `density.rs`, so the model does not connect the chunk
  sampler to `TerrainDensity`. The editor's four-argument `Density::new`
  call (editor/editor.rs:53) likewise disagrees with `density.rs`, which is
  modelled as written.
- The asset store, the ECS world and their services are not part of this
  model. `Services` keeps what the terrain uses of them:
  - a store of meshes behind non-null ids, with `get_mut` as a map lookup;
  - a list of (model, tile) entities that `spawn` appends to and that
    `query` walks.
- `Model` keeps the mesh id, the translation, the scale and the disabled
  flag. The texture (`assets.register("terrain")`) and the rest of the
  `Transform` are left out.
- The chunk counter, the timer and the `println!` calls in `spawn` do not
  affect state and are left out.
- `Density::set` uses `rayon`'s order-preserving parallel iterators. The
  model builds the same grid as one sequential comprehension.
- GPU buffer uploads in `mesh.rs` are device calls and are left out:
  - `load_vertices_buffer`, `load_indices_buffer`, `load_as_static`,
    `load_as_skinned`.

  The two buffer fields are opaque optional values.
- `HeightMap::add_hill` is commented out in the source. `IS_ODD_RING` is
  declared and never used, and is kept only as a constant.

Weaker contracts and modelling choices:

- HeightMaps.ReadPixel: each step `value |= byte << (8 * b)` shifts a `u8` by
  8 bits in its second iteration, which overflows. The model does not give
  the combination a meaning: `orShifted` is a parameter. The model states
  only which bytes are read and in which order, not a 16-bit decode.
- HeightMaps.FromTexture: requires a non-zero width and height (the source
  divides by both). It also requires the last cell's two bytes to be inside
  the data (the source panics otherwise).
- Chunks.Chunk.Polygonize: requires an existing mesh id to name a stored mesh
  without an index buffer. The source unwraps `get_mut`, so a stored mesh is
  what it relies on. Every mesh the terrain creates has no index buffer, and
  the terrain's invariant (`Terrain.MeshesReady`) keeps this true, so no
  reachable chunk is excluded.
- Terrains.Terrain.Spawn: the update's loops are split into one method per
  loop and per loop body. A skipped position (`continue`) is a negated
  condition around the visit. Their ensures clauses describe the same
  sequence of map updates as the source's nested loops.
- Octrees.Octree.Store: the source does not compile:
  - `HashMap` has no `store` (editor/octree.rs:17);
  - the closure in `new` takes no argument (editor/octree.rs:11);
  - `load` never returns (editor/octree.rs:20-25);
  - the field type `Vec<HashMap<Index, Node>,` lacks a closing `>`
    (editor/octree.rs:4);
  - `HashMap` is never imported.

  The model is the evident intent: a per-level insert and lookup.
- Octrees.Octree.Load: takes `&mut self` in the source but is modelled as a
  read-only function, since it only looks up.
- Meshes.Mesh.Calculate: when normals are missing, requires every corner of
  every face to name a vertex (the face loop indexes `positions` and panics
  otherwise). With normals present the source returns before reading the
  indices, and so does the model.
- HeightMaps.FloorToUsize: `f as usize` is modelled on reals. A NaN (which
  Rust casts to 0), an infinity, and values above `usize::MAX` (which
  saturate) are not modelled.
- Terrains.Terrain.Spawn: what the stored meshes hold after a whole pass is
  not stated. `Refresh` states it for each visited chunk, but carrying it to
  the end of the pass would need every chunk to own a distinct mesh object,
  which the model does not track.
- Skins.Skin.TransformJoints: requires the skin transform to have at least as
  many entries as the skin has joints, and every parent id to name a joint.
  The source panics on an out-of-range write or on the `unwrap` in
  `Skin::index`.
- Skins.SkinTransform.Matrices: requires every index id to name some joint
  transform (the source unwraps `find`). The `[[f32; 4]; 4]` conversion is
  the identity on the matrix.

=== FILE: chunk.dfy ===
/**
 * One terrain chunk: a 16-cell cube of the density field at some ring
 * (level of detail), its mesh id once polygonized, and the three flags
 * the terrain's update pass reads and writes.
 *
 * A chunk lives by value inside its ring's map, so it is a datatype here;
 * `Polygonize` is the one operation that reaches outside it (into the mesh
 * store and the world) and returns the chunk's new value.
 */
module Chunks {
  import opened Wrappers
  import opened Math
  import opened Lod
  import opened Meshes
  import opened Services

  /** Cells along each edge of a chunk, at every ring. */
  const ChunkSize: nat := 16

  /** The component each spawned terrain entity carries: which chunk drew it. */
  datatype Tile = Tile(position: Vec3i, ring: nat)

  /** What the marching-cubes pass samples: the density at local lattice point (x, y, z). */
  type Sampler = (nat, nat, nat) -> F32

  /** The 16-by-16 marching-cubes polygonizer: the triangle vertex positions it produces for a sampler. */
  type MarchingCubes = Sampler -> seq<Vec3>

  /** The density field at a world lattice point, divided by the chunk's scale. */
  type DensityAt = (Vec3i, nat) -> F32

  /**
   * The world lattice point sampled for local point (x, y, z): every axis
   * steps by the ring's scale, except that the y axis would step by 5 if
   * that scale were 9.
   */
  function SampleCoord(position: Vec3i, ring: nat, x: nat, y: nat, z: nat): (c: Vec3i)
    ensures c.x == position.x + Pow2(ring) * x && c.z == position.z + Pow2(ring) * z
    ensures c.y == position.y + Pow2(ring) * y || Pow2(ring) == 9
  {
    var scale := Pow2(ring);
    Vec3i(position.x + scale * x, position.y + (if scale == 9 then 5 else scale) * y, position.z + scale * z)
  }

  /** The scale is a power of two and never 9, so the sampled lattice is the chunk's origin plus scale times the local point on all three axes. */
  lemma SampleCoordIsUniform(position: Vec3i, ring: nat, x: nat, y: nat, z: nat)
    ensures SampleCoord(position, ring, x, y, z)
         == Vec3i(position.x + Pow2(ring) * x, position.y + Pow2(ring) * y, position.z + Pow2(ring) * z)
  {
    Pow2IsNotNine(ring);
  }

  /** The texture coordinate every vertex of a ring's meshes gets. */
  function RingUv(ring: nat): (uv: Vec2)
    ensures ring == 0 ==> uv == Vec2(0.0, 0.0)
    ensures ring == 1 ==> uv == Vec2(1.0, 0.0)
    ensures ring == 2 ==> uv == Vec2(1.0, 1.0)
    ensures ring > 2 ==> uv == Vec2(0.0, 1.0)
  {
    match ring
    case 0 => Vec2(0.0, 0.0)
    case 1 => Vec2(1.0, 0.0)
    case 2 => Vec2(1.0, 1.0)
    case _ => Vec2(0.0, 1.0)
  }

  /** One copy of the ring's texture coordinate per vertex. */
  function RingUvs(ring: nat, count: nat): (uvs: seq<Vec2>)
    ensures |uvs| == count
    ensures forall i :: 0 <= i < count ==> uvs[i] == RingUv(ring)
  {
    seq(count, _ => RingUv(ring))
  }

  /** The mesh a non-empty surface leaves in the store: its positions, the ring's texture coordinates, fresh normals, no index buffer and nothing on the GPU. */
  ghost predicate Carries(mesh: Mesh, surface: seq<Vec3>, ring: nat, ops: NormalOps)
    reads mesh
  {
    && mesh.positions == surface
    && mesh.uvs == Some(RingUvs(ring, |surface|))
    && mesh.indices.None?
    && mesh.normals == Some(AccumulatedNormals(surface, None, ops, FaceCountOf(|surface|, None)))
    && mesh.verticesBuffer.None? && mesh.indicesBuffer.None?
  }

  /** The ids of stored meshes without an index buffer: the ones a terrain chunk may point at. */
  function Unindexed(assets: Assets): (ids: set<MeshId>)
    reads assets, assets.meshes.Values
    ensures forall id :: id in ids <==> id in assets.meshes && assets.meshes[id].indices.None?
  {
    set id | id in assets.meshes && assets.meshes[id].indices.None?
  }

  /** The mesh object a chunk's id names in the store, if any. */
  function MeshObjects(assets: Assets, id: Option<MeshId>): set<Mesh>
    reads assets
  {
    if id.Some? && id.value in assets.meshes then {assets.meshes[id.value]} else {}
  }

  /** The existing-mesh branch of `polygonize`: new positions and uvs, normals dropped and recomputed, GPU buffers dropped. */
  method Refill(m: Mesh, surface: seq<Vec3>, ring: nat, ops: NormalOps)
    requires m.indices.None?
    modifies m
    ensures Carries(m, surface, ring, ops)
    ensures m.weights == old(m.weights) && m.joints == old(m.joints)
  {
    m.positions := surface;
    m.uvs := Some(RingUvs(ring, |surface|));
    m.normals := None;
    m.Calculate(ops);
    m.Unload();
  }

  /** The new-mesh branch of `polygonize`: a default mesh with the positions and uvs, normals computed. */
  method Filled(surface: seq<Vec3>, ring: nat, ops: NormalOps) returns (m: Mesh)
    ensures fresh(m) && Carries(m, surface, ring, ops)
    ensures m.weights == None && m.joints == None
  {
    m := new Mesh();
    m.positions := surface;
    m.uvs := Some(RingUvs(ring, |surface|));
    m.Calculate(ops);
  }

  datatype Chunk = Chunk(position: Vec3i, ring: nat, mesh: Option<MeshId>, changed: bool, hollow: bool, disabled: bool)
  {
    /** Whether the update pass polygonizes this chunk: it has changed and was not found empty. */
    predicate Dirty(): (dirty: bool)
      ensures dirty ==> !hollow
      ensures dirty <== changed && !hollow
    {
      !hollow && changed
    }

    /** The component that ties a spawned entity back to this chunk. */
    function ToTile(): (t: Tile)
      ensures t.position == position && t.ring == ring
    {
      Tile(position, ring)
    }

    /** The sampler handed to marching cubes: the density at this chunk's lattice points, divided by its scale. */
    function Sampler(density: DensityAt): Sampler
    {
      (x: nat, y: nat, z: nat) => density(SampleCoord(position, ring, x, y, z), Pow2(ring))
    }

    /** The triangle vertices marching cubes produces for this chunk. */
    function Surface(mc: MarchingCubes, density: DensityAt): seq<Vec3>
    {
      mc(Sampler(density))
    }

    /**
     * `polygonize`: an empty surface marks the chunk hollow and changes
     * nothing else. Otherwise the surface replaces the contents of the
     * chunk's mesh (normals recomputed, GPU buffers dropped), or, for a chunk
     * without a mesh, goes into a new mesh that is stored and spawned into
     * the world as a model at the chunk's position and scale; either way
     * the chunk is no longer changed.
     */
    method Polygonize(assets: Assets, world: World<Tile>, mc: MarchingCubes, density: DensityAt, ops: NormalOps)
      returns (next: Chunk)
      requires assets.Valid()
      requires mesh.Some? ==> mesh.value in Unindexed(assets)
      modifies assets, world, MeshObjects(assets, mesh)
      ensures assets.Valid() && Grew(assets) && Extended(world)
      ensures Polygonized(this, next, |Surface(mc, density)|)
      ensures old(Unindexed(assets)) <= Unindexed(assets)
      ensures next.mesh.Some? ==> next.mesh.value in Unindexed(assets)
      ensures next.mesh.Some? ==> next.mesh.value in assets.meshes
      ensures |Surface(mc, density)| > 0 ==> Carries(assets.meshes[next.mesh.value], Surface(mc, density), ring, ops)
      ensures mesh.Some? || |Surface(mc, density)| == 0 ==> assets.meshes == old(assets.meshes)
      ensures |Surface(mc, density)| == 0 ==> forall m :: m in old(MeshObjects(assets, mesh)) ==> unchanged(m)
      ensures mesh.None? && |Surface(mc, density)| > 0 ==>
        && next.mesh.value !in old(assets.meshes)
        && assets.meshes.Keys == old(assets.meshes.Keys) + {next.mesh.value}
        && assets.meshes[next.mesh.value].weights == None && assets.meshes[next.mesh.value].joints == None
      ensures mesh.Some? && |Surface(mc, density)| > 0 ==>
        && assets.meshes[mesh.value].weights == old(assets.meshes[mesh.value].weights)
        && assets.meshes[mesh.value].joints == old(assets.meshes[mesh.value].joints)
      ensures mesh.Some? || |Surface(mc, density)| == 0 ==> world.entities == old(world.entities)
      ensures mesh.None? && |Surface(mc, density)| > 0 ==>
        world.entities == old(world.entities) + [(Model(next.mesh.value, position, Pow2(ring), false), ToTile())]
    {
      var scale := Pow2(ring);
      var positions := Surface(mc, density);
      var len := |positions|;
      if len == 0 {
        return this.(hollow := true);
      }
      var id: MeshId;
      if mesh.Some? {
        id := mesh.value;
        Refill(assets.meshes[id], positions, ring, ops);
      } else {
        var m := Filled(positions, ring, ops);
        id := assets.Store(m);
        world.Spawn(Model(id, position, scale, false), ToTile());
      }
      next := this.(mesh := Some(id), changed := false);
    }
  }

  /** `Chunk::new`: no mesh yet, changed, not hollow, disabled until the update pass reaches it. */
  function NewChunk(position: Vec3i, ring: nat): (c: Chunk)
    ensures c.position == position && c.ring == ring && c.mesh.None?
    ensures c.Dirty() && c.disabled
  {
    Chunk(position, ring, None, true, false, true)
  }

  /**
   * What polygonizing `before` into a surface of `count` vertices leaves:
   * an empty surface only sets hollow; otherwise the chunk has a mesh (the
   * one it had, if it had one) and is no longer changed. Position, ring
   * and the disabled flag never change.
   */
  ghost predicate Polygonized(before: Chunk, after: Chunk, count: nat)
  {
    if count == 0 then after == before.(hollow := true)
    else
      && after.mesh.Some?
      && (before.mesh.Some? ==> after.mesh == before.mesh)
      && after == before.(mesh := after.mesh, changed := false)
  }

  /**
   * What one visit of the update pass makes of a chunk that was `prior`
   * (its stored value, or a new chunk): a dirty chunk is polygonized, a
   * clean one kept; either way it ends enabled.
   */
  ghost predicate Refreshed(prior: Chunk, after: Chunk, mc: MarchingCubes, density: DensityAt)
  {
    && !after.disabled
    && (if prior.Dirty() then Polygonized(prior, after.(disabled := prior.disabled), |prior.Surface(mc, density)|)
        else after == prior.(disabled := false))
  }

  /** A chunk found hollow is never polygonized again, and one polygonized is clean: a second visit with the same field changes nothing but the disabled flag. */
  lemma RefreshSettles(prior: Chunk, after: Chunk, again: Chunk, mc: MarchingCubes, density: DensityAt)
    requires Refreshed(prior, after, mc, density)
    requires Refreshed(after, again, mc, density)
    ensures again == after
  {
  }
}

=== FILE: density.dfy ===
/**
 * `Density`: a three-dimensional grid of density samples that reads as 1.0
 * everywhere until it has been filled (dotrix_terrain/src/density.rs).
 */
module TerrainDensity {
  import opened Wrappers
  import opened Math

  type Grid = seq<seq<seq<F32>>>

  /** The grid is `sizeX` rows of `sizeY` columns of `sizeZ` samples. */
  ghost predicate Shaped(g: Grid, sizeX: nat, sizeY: nat, sizeZ: nat)
  {
    && |g| == sizeX
    && (forall x :: 0 <= x < sizeX ==> |g[x]| == sizeY)
    && (forall x, y :: 0 <= x < sizeX && 0 <= y < sizeY ==> |g[x][y]| == sizeZ)
  }

  /**
   * The grid `Density::set` collects: `f` evaluated at every index. The
   * parallel iterators of the source preserve order and share nothing, so
   * the grid is the plain comprehension.
   */
  function Sampled(sizeX: nat, sizeY: nat, sizeZ: nat, f: (nat, nat, nat) -> F32): (g: Grid)
    ensures Shaped(g, sizeX, sizeY, sizeZ)
    ensures forall x, y, z :: 0 <= x < sizeX && 0 <= y < sizeY && 0 <= z < sizeZ ==> g[x][y][z] == f(x, y, z)
  {
    seq(sizeX, x requires 0 <= x => seq(sizeY, y requires 0 <= y => seq(sizeZ, z requires 0 <= z => f(x, y, z))))
  }

  class Density {
    const sizeX: nat
    const sizeY: nat
    const sizeZ: nat
    var values: Option<Grid>

    /** Once set, the stored grid has the recorded dimensions. */
    ghost predicate Valid()
      reads this
    {
      values.Some? ==> Shaped(values.value, sizeX, sizeY, sizeZ)
    }

    /** `Density::new`: records the sizes, no samples yet. */
    constructor (sizeX: nat, sizeY: nat, sizeZ: nat)
      ensures Valid()
      ensures this.sizeX == sizeX && this.sizeY == sizeY && this.sizeZ == sizeZ
      ensures values == None
      ensures forall x: nat, y: nat, z: nat :: Value(x, y, z) == 1.0
    {
      this.sizeX, this.sizeY, this.sizeZ := sizeX, sizeY, sizeZ;
      values := None;
    }

    /** Indices the filled grid can answer for. */
    predicate InRange(x: nat, y: nat, z: nat)
    {
      x < sizeX && y < sizeY && z < sizeZ
    }

    /**
     * `Density::value`: 1.0 while the grid is unset, the stored sample
     * afterwards (the source indexes the vectors, so out-of-range indices
     * are excluded only once a grid exists).
     */
    function Value(x: nat, y: nat, z: nat): (v: F32)
      reads this
      requires Valid()
      requires values.Some? ==> InRange(x, y, z)
      ensures values.None? ==> v == 1.0
    {
      match values
      case None => 1.0
      case Some(g) => g[x][y][z]
    }

    /** `Density::set`: replaces the whole grid with `density` sampled at every index. */
    method Set(density: (nat, nat, nat) -> F32)
      requires Valid()
      modifies this`values
      ensures Valid()
      ensures values == Some(Sampled(sizeX, sizeY, sizeZ, density))
      ensures forall x: nat, y: nat, z: nat :: InRange(x, y, z) ==> Value(x, y, z) == density(x, y, z)
    {
      values := Some(Sampled(sizeX, sizeY, sizeZ, density));
    }
  }
}

=== FILE: height_map.dfy ===
/**
 * `HeightMap<T>`: a grid of heights, `sizeX` rows of `sizeZ` entries,
 * built empty or from a texture's bytes, and read back by integer or by
 * floating-point coordinates (dotrix_terrain/src/height_map.rs).
 */
module HeightMaps {
  import opened Math

  /** The texture fields `from_texture` reads. */
  datatype Texture = Texture(width: nat, height: nat, data: seq<u8>)

  /** The coordinate kinds `pick` accepts: `usize` cells or `f32` points. */
  datatype Coords = Cell(cx: nat, cz: nat) | Point(px: real, pz: real)

  /** `f.floor() as usize`: the floor, with negative values saturating to 0. */
  function FloorToUsize(f: real): (n: nat)
    ensures f >= 0.0 ==> n as real <= f < n as real + 1.0
    ensures f < 0.0 ==> n == 0
  {
    if f.Floor < 0 then 0 else f.Floor
  }

  datatype HeightMap<T> = HeightMap(sizeX: nat, sizeZ: nat, heights: seq<seq<T>>)
  {
    /** `sizeX` rows of `sizeZ` heights. */
    ghost predicate Valid()
    {
      |heights| == sizeX && forall x :: 0 <= x < sizeX ==> |heights[x]| == sizeZ
    }

    /** `pick_height` on `usize`: row x, entry z. */
    function PickHeight(x: nat, z: nat): (h: T)
      requires Valid() && x < sizeX && z < sizeZ
      ensures h == heights[x][z]
    {
      heights[x][z]
    }

    /** Whether `pick_height` on `f32` stays inside the grid: the floor of z selects the row, the floor of x the entry. */
    predicate PointInside(x: real, z: real)
    {
      FloorToUsize(z) < sizeX && FloorToUsize(x) < sizeZ
    }

    /** `pick_height` on `f32`: the integer picker at the floors, with the axes swapped. */
    function PickHeightF(x: real, z: real): (h: T)
      requires Valid() && PointInside(x, z)
      ensures h == heights[FloorToUsize(z)][FloorToUsize(x)]
      ensures x >= 0.0 && z >= 0.0 ==> h == heights[z.Floor][x.Floor]
      ensures x < 0.0 ==> h == heights[FloorToUsize(z)][0]
      ensures z < 0.0 ==> h == heights[0][FloorToUsize(x)]
    {
      PickHeight(FloorToUsize(z), FloorToUsize(x))
    }

    predicate Picks(c: Coords)
    {
      match c
      case Cell(x, z) => x < sizeX && z < sizeZ
      case Point(x, z) => PointInside(x, z)
    }

    /** `pick`: hands the coordinates to the picker for their kind. */
    function Pick(c: Coords): (h: T)
      requires Valid() && Picks(c)
      ensures c.Cell? ==> h == heights[c.cx][c.cz]
      ensures c.Point? ==> h == heights[FloorToUsize(c.pz)][FloorToUsize(c.px)]
    {
      match c
      case Cell(x, z) => PickHeight(x, z)
      case Point(x, z) => PickHeightF(x, z)
    }
  }

  /** The float picker reads whole-numbered points with the axes swapped: point (a, b) is cell (b, a). */
  lemma PointIsSwappedCell<T>(m: HeightMap<T>, a: nat, b: nat)
    requires m.Valid() && b < m.sizeX && a < m.sizeZ
    ensures m.Picks(Point(a as real, b as real))
    ensures m.Pick(Point(a as real, b as real)) == m.Pick(Cell(b, a))
  {
    assert FloorToUsize(a as real) == a;
    assert FloorToUsize(b as real) == b;
  }

  /** The float picker does not see fractions: every point of the unit square above a cell reads that cell. */
  lemma PointFloors<T>(m: HeightMap<T>, x: real, z: real, a: nat, b: nat)
    requires m.Valid() && b < m.sizeX && a < m.sizeZ
    requires a as real <= x < a as real + 1.0 && b as real <= z < b as real + 1.0
    ensures m.Picks(Point(x, z)) && m.Pick(Point(x, z)) == m.heights[b][a]
  {
    assert x.Floor == a;
    assert z.Floor == b;
  }

  /** `HeightMap::new`: `sizeX` rows of `sizeZ` zeros (`0.into()`). */
  function New<T>(sizeX: nat, sizeZ: nat, zero: T): (m: HeightMap<T>)
    ensures m.Valid() && m.sizeX == sizeX && m.sizeZ == sizeZ
    ensures forall x, z :: 0 <= x < sizeX && 0 <= z < sizeZ ==> m.heights[x][z] == zero
  {
    HeightMap(sizeX, sizeZ, seq(sizeX, _ => seq(sizeZ, _ => zero)))
  }

  /** `texture.data.len() / size_x / size_z`. */
  function BytesPerPixel(t: Texture): nat
    requires t.width > 0 && t.height > 0
  {
    |t.data| / t.width / t.height
  }

  /** Where the bytes of cell (x, z) start: pixels are laid out row after row of `height` pixels. */
  function PixelOffset(t: Texture, x: nat, z: nat): nat
    requires t.width > 0 && t.height > 0
  {
    BytesPerPixel(t) * (x * t.height + z)
  }

  /** Both bytes `from_texture` reads for the last cell exist (the source panics otherwise). */
  predicate ReadsInBounds(t: Texture)
    requires t.width > 0 && t.height > 0
  {
    BytesPerPixel(t) * (t.width * t.height - 1) + 1 < |t.data|
  }

  /** Every cell's two bytes lie inside the data. */
  lemma OffsetInBounds(t: Texture, x: nat, z: nat)
    requires t.width > 0 && t.height > 0 && ReadsInBounds(t)
    requires x < t.width && z < t.height
    ensures PixelOffset(t, x, z) + 1 < |t.data|
  {
    var h := t.height;
    var last := t.width * h - 1;
    assert x * h + z <= last by {
      MulLeq(h, x, t.width - 1);
      MulPred(t.width, h);
    }
    MulLeq(BytesPerPixel(t), x * h + z, last);
  }

  lemma MulLeq(a: nat, b: nat, c: nat)
    requires b <= c
    ensures b * a <= c * a && a * b <= a * c
  {
  }

  lemma MulPred(a: nat, b: nat)
    requires a > 0
    ensures (a - 1) * b == a * b - b
  {
  }

  /**
   * The value the two-byte read of `from_texture` accumulates at `offset`:
   * `value |= data[offset + b] << (8 * b)` for b = 0 and 1, starting from
   * 0. `orShifted(acc, byte, shift)` is `acc | (byte << shift)` in the
   * source's `u8` arithmetic.
   */
  function Pixel(data: seq<u8>, offset: nat, orShifted: (u8, u8, nat) -> u8): u8
    requires offset + 1 < |data|
  {
    orShifted(orShifted(0, data[offset], 0), data[offset + 1], 8)
  }

  /** What `from_texture` stores at cell (x, z): `y_scale * value.into()`. */
  function Stored<T>(t: Texture, x: nat, z: nat, yScale: T, orShifted: (u8, u8, nat) -> u8, scaled: (T, u8) -> T): T
    requires t.width > 0 && t.height > 0 && ReadsInBounds(t)
    requires x < t.width && z < t.height
  {
    OffsetInBounds(t, x, z);
    scaled(yScale, Pixel(t.data, PixelOffset(t, x, z), orShifted))
  }

  /** The innermost loop of `from_texture`: the two bytes of one pixel. */
  method ReadPixel(data: seq<u8>, offset: nat, orShifted: (u8, u8, nat) -> u8) returns (value: u8)
    requires offset + 1 < |data|
    ensures value == Pixel(data, offset, orShifted)
  {
    value := 0;
    for b := 0 to 2
      invariant b == 0 ==> value == 0
      invariant b == 1 ==> value == orShifted(0, data[offset], 0)
      invariant b == 2 ==> value == Pixel(data, offset, orShifted)
    {
      value := orShifted(value, data[offset + b], 8 * b);
    }
  }

  /**
   * `HeightMap::from_texture`: a `width` by `height` map whose cell (x, z)
   * holds `y_scale` times the pixel read at `PixelOffset(x, z)`.
   */
  method FromTexture<T>(t: Texture, yScale: T, zero: T, orShifted: (u8, u8, nat) -> u8, scaled: (T, u8) -> T)
    returns (m: HeightMap<T>)
    requires t.width > 0 && t.height > 0 && ReadsInBounds(t)
    ensures m.Valid() && m.sizeX == t.width && m.sizeZ == t.height
    ensures forall x, z :: 0 <= x < t.width && 0 <= z < t.height ==>
      m.heights[x][z] == Stored(t, x, z, yScale, orShifted, scaled)
  {
    m := New(t.width, t.height, zero);
    var bytesPerPixel := |t.data| / m.sizeX / m.sizeZ;
    for x := 0 to m.sizeX
      invariant m.Valid() && m.sizeX == t.width && m.sizeZ == t.height
      invariant forall x', z :: 0 <= x' < x && 0 <= z < m.sizeZ ==>
        m.heights[x'][z] == Stored(t, x', z, yScale, orShifted, scaled)
    {
      var i := x * m.sizeZ;
      var row := m.heights[x];
      for z := 0 to m.sizeZ
        invariant |row| == m.sizeZ
        invariant forall z' :: 0 <= z' < z ==> row[z'] == Stored(t, x, z', yScale, orShifted, scaled)
      {
        var offset := bytesPerPixel * (i + z);
        OffsetInBounds(t, x, z);
        var value := ReadPixel(t.data, offset, orShifted);
        row := row[z := scaled(yScale, value)];
      }
      m := m.(heights := m.heights[x := row]);
    }
  }
}

=== FILE: lod.dfy ===
/** `Lod`: a level of detail and the power-of-two scale it stands for (editor/lod.rs). */
module Lod {

  /** Largest exponent for which `2_i32.pow(n)` does not overflow. */
  const MaxScaledLevel: nat := 30
  const I32Max: int := 0x7fff_ffff

  /** 2^n on unbounded integers: the chunk scale of ring n everywhere in the terrain. */
  function Pow2(n: nat): (r: nat)
    ensures r >= 1
    ensures n > 0 ==> r % 2 == 0
  {
    if n == 0 then 1 else 2 * Pow2(n - 1)
  }

  lemma {:induction false} Pow2Monotone(m: nat, n: nat)
    requires m <= n
    ensures Pow2(m) <= Pow2(n)
  {
    if m < n {
      Pow2Monotone(m, n - 1);
    }
  }

  /** `2_i32.pow(n)` stays within `i32` exactly when n <= 30. */
  lemma Pow2FitsI32(n: nat)
    ensures Pow2(n) <= I32Max <==> n <= MaxScaledLevel
  {
    Pow2Of30();
    if n <= MaxScaledLevel {
      Pow2Monotone(n, 30);
    } else {
      Pow2Monotone(31, n);
    }
  }

  /** 2^30, one doubling at a time. */
  lemma Pow2Of30()
    ensures Pow2(30) == 0x4000_0000
  {
    assert Pow2(1) == 2;
    assert Pow2(2) == 4;
    assert Pow2(3) == 8;
    assert Pow2(4) == 16;
    assert Pow2(5) == 32;
    assert Pow2(6) == 64;
    assert Pow2(7) == 128;
    assert Pow2(8) == 256;
    assert Pow2(9) == 512;
    assert Pow2(10) == 1024;
    assert Pow2(11) == 2048;
    assert Pow2(12) == 4096;
    assert Pow2(13) == 8192;
    assert Pow2(14) == 16384;
    assert Pow2(15) == 32768;
    assert Pow2(16) == 65536;
    assert Pow2(17) == 131072;
    assert Pow2(18) == 262144;
    assert Pow2(19) == 524288;
    assert Pow2(20) == 1048576;
    assert Pow2(21) == 2097152;
    assert Pow2(22) == 4194304;
    assert Pow2(23) == 8388608;
    assert Pow2(24) == 16777216;
    assert Pow2(25) == 33554432;
    assert Pow2(26) == 67108864;
    assert Pow2(27) == 134217728;
    assert Pow2(28) == 268435456;
    assert Pow2(29) == 536870912;
    assert Pow2(30) == 1073741824;
  }

  /** A power of two is never 9: the `scale == 9` branch of the chunk sampler is dead. */
  lemma Pow2IsNotNine(n: nat)
    ensures Pow2(n) != 9
  {
  }

  datatype Lod = Lod(level: nat)
  {
    /** `Lod::scale`: `2_i32.pow(level)`, which the source computes in `i32`. */
    function Scale(): (s: int)
      requires level <= MaxScaledLevel
      ensures 1 <= s <= I32Max
      ensures s == Pow2(level)
    {
      Pow2FitsI32(level);
      Pow2(level)
    }
  }

  /** The scale starts at 1 and doubles with every level. */
  lemma ScaleDoubles(n: nat)
    requires n < MaxScaledLevel
    ensures Lod(0).Scale() == 1
    ensures Lod(n + 1).Scale() == 2 * Lod(n).Scale()
  {
  }
}

=== FILE: math.dfy ===
/**
 * Carrier types for the engine's single-precision vectors and matrices.
 *
 * The model never computes with these values: it stores, copies, compares
 * and zips them. Every arithmetic operation the engine applies to them
 * (cross product, normalisation, interpolation, matrix product) comes in as
 * a function parameter of the member that needs it.
 */
module Math {

  /** An `f32`, carried as a real. */
  type F32 = real

  newtype u8 = x: int | 0 <= x < 0x100
  newtype u16 = x: int | 0 <= x < 0x1_0000
  newtype u32 = x: int | 0 <= x < 0x1_0000_0000

  const U32Modulus: int := 0x1_0000_0000

  /** `[f32; 2]` */
  datatype Vec2 = Vec2(u: F32, v: F32)
  /** `[f32; 3]` */
  datatype Vec3 = Vec3(x: F32, y: F32, z: F32)
  /** `[f32; 4]` */
  datatype Vec4 = Vec4(x: F32, y: F32, z: F32, w: F32)
  /** `[u16; 4]` */
  datatype Joints4 = Joints4(a: u16, b: u16, c: u16, d: u16)
  /** `Vec3i`: a point of the integer lattice. */
  datatype Vec3i = Vec3i(x: int, y: int, z: int)

  /** `cgmath::Matrix4<f32>`, its sixteen entries in column order. */
  datatype Mat4 = Mat4(entries: seq<F32>)

  const Identity: Mat4 :=
    Mat4([1.0, 0.0, 0.0, 0.0,
          0.0, 1.0, 0.0, 0.0,
          0.0, 0.0, 1.0, 0.0,
          0.0, 0.0, 0.0, 1.0])

  function Min(a: nat, b: nat): nat
  {
    if a <= b then a else b
  }

  function Max(a: nat, b: nat): nat
  {
    if a <= b then b else a
  }

  /** The renderer's `Transform` (translation, rotation, scale), as an opaque record. */
  datatype Transform = Transform(components: seq<F32>)
}

=== FILE: mesh.dfy ===
/**
 * `Mesh`: vertex attributes of a renderable mesh, their packing into vertex
 * records, the `cube()` fixture and the reconstruction of per-vertex normals
 * (dotrix_core/src/assets/mesh.rs).
 */
module Meshes {
  import opened Wrappers
  import opened Math

  /** A `wgpu::Buffer` handle; the device calls that create one are not modelled. */
  datatype GpuBuffer = GpuBuffer(handle: nat)

  datatype StaticModelVertex = StaticModelVertex(position: Vec3, normal: Vec3, uv: Vec2)

  datatype SkinnedModelVertex = SkinnedModelVertex(position: Vec3, normal: Vec3, uv: Vec2, weights: Vec4, joints: Joints4)

  /**
   * The vector arithmetic `calculate` uses: `faceNormal(v0, v1, v2)` stands for
   * `(v1 - v0).cross(v2 - v1).normalize()`, `lerp(a, b, t)` for cgmath's `a.lerp(b, t)`.
   */
  datatype NormalOps = NormalOps(faceNormal: (Vec3, Vec3, Vec3) -> Vec3, lerp: (Vec3, Vec3, F32) -> Vec3)

  /** The value `calculate` fills every normal slot with before any face touches it. */
  const Sentinel: Vec3 := Vec3(99.9, 99.9, 99.9)

  /** `a.iter().zip(b.iter())`: pairs up to the shorter of the two. */
  function Zip<A, B>(a: seq<A>, b: seq<B>): (r: seq<(A, B)>)
    ensures |r| == Min(|a|, |b|)
    ensures forall i :: 0 <= i < |r| ==> r[i] == (a[i], b[i])
  {
    if |a| == 0 || |b| == 0 then [] else [(a[0], b[0])] + Zip(a[1..], b[1..])
  }

  /** The position slot that corner `k` of the face list refers to. */
  function Corner(indices: Option<seq<u32>>, k: nat): nat
    requires indices.Some? ==> k < |indices.value|
  {
    if indices.Some? then indices.value[k] as nat else k
  }

  /** Number of whole triangles `calculate` walks: a third of the index count, or of the vertex count. */
  function FaceCountOf(vertexCount: nat, indices: Option<seq<u32>>): (faces: nat)
    ensures indices.Some? ==> 3 * faces <= |indices.value| < 3 * faces + 3
    ensures indices.None? ==> 3 * faces <= vertexCount < 3 * faces + 3
  {
    (if indices.Some? then |indices.value| else vertexCount) / 3
  }

  /** Every corner of every walked face names an existing vertex (otherwise `calculate` panics). */
  predicate CornersInRange(vertexCount: nat, indices: Option<seq<u32>>)
  {
    forall k :: 0 <= k < 3 * FaceCountOf(vertexCount, indices) ==> Corner(indices, k) < vertexCount
  }

  /** One write of `calculate`: the first normal lands as it is, later ones are averaged in. */
  function Blend(normals: seq<Vec3>, i: nat, n: Vec3, ops: NormalOps): (r: seq<Vec3>)
    requires i < |normals|
    ensures |r| == |normals|
  {
    normals[i := if normals[i].x > 9.0 then n else ops.lerp(n, normals[i], 0.5)]
  }

  /** The normal buffer after `calculate` has processed the first `faces` triangles. */
  function AccumulatedNormals(positions: seq<Vec3>, indices: Option<seq<u32>>, ops: NormalOps, faces: nat): (normals: seq<Vec3>)
    requires CornersInRange(|positions|, indices)
    requires faces <= FaceCountOf(|positions|, indices)
    ensures |normals| == |positions|
    decreases faces
  {
    if faces == 0 then
      seq(|positions|, _ => Sentinel)
    else
      var before := AccumulatedNormals(positions, indices, ops, faces - 1);
      var k := 3 * (faces - 1);
      var i0, i1, i2 := Corner(indices, k), Corner(indices, k + 1), Corner(indices, k + 2);
      var n := ops.faceNormal(positions[i0], positions[i1], positions[i2]);
      Blend(Blend(Blend(before, i0, n, ops), i1, n, ops), i2, n, ops)
  }

  /** A vertex that none of the walked faces refers to keeps the sentinel. */
  lemma {:induction false} UnreferencedKeepsSentinel(positions: seq<Vec3>, indices: Option<seq<u32>>, ops: NormalOps, faces: nat, v: nat)
    requires CornersInRange(|positions|, indices)
    requires faces <= FaceCountOf(|positions|, indices)
    requires v < |positions|
    requires forall k :: 0 <= k < 3 * faces ==> Corner(indices, k) != v
    ensures AccumulatedNormals(positions, indices, ops, faces)[v] == Sentinel
  {
    if faces > 0 {
      UnreferencedKeepsSentinel(positions, indices, ops, faces - 1, v);
      var k := 3 * (faces - 1);
      assert Corner(indices, k) != v && Corner(indices, k + 1) != v && Corner(indices, k + 2) != v;
    }
  }

  /** Processing face `face` turns the buffer after `face` faces into the buffer after `face + 1`. */
  lemma AccumulatedStep(positions: seq<Vec3>, indices: Option<seq<u32>>, ops: NormalOps, face: nat)
    requires CornersInRange(|positions|, indices)
    requires face < FaceCountOf(|positions|, indices)
    ensures Corner(indices, 3 * face) < |positions| && Corner(indices, 3 * face + 1) < |positions|
    ensures Corner(indices, 3 * face + 2) < |positions|
    ensures
      var i0, i1, i2 := Corner(indices, 3 * face), Corner(indices, 3 * face + 1), Corner(indices, 3 * face + 2);
      var n := ops.faceNormal(positions[i0], positions[i1], positions[i2]);
      AccumulatedNormals(positions, indices, ops, face + 1)
        == Blend(Blend(Blend(AccumulatedNormals(positions, indices, ops, face), i0, n, ops), i1, n, ops), i2, n, ops)
  {
  }

  /** One `normals[i] = if normals[i][0] > 9.0 { n } else { n.lerp(normals[i], 0.5) }` statement. */
  method BlendInPlace(normals: array<Vec3>, i: nat, n: Vec3, ops: NormalOps)
    requires i < normals.Length
    modifies normals
    ensures normals[..] == Blend(old(normals[..]), i, n, ops)
  {
    normals[i] := if normals[i].x > 9.0 then n else ops.lerp(n, normals[i], 0.5);
  }

  /** One pass of the loop of `calculate`: face `face`'s three corners, its normal, and the three writes. */
  method AccumulateFace(acc: array<Vec3>, positions: seq<Vec3>, indices: Option<seq<u32>>, ops: NormalOps, face: nat)
    requires CornersInRange(|positions|, indices)
    requires face < FaceCountOf(|positions|, indices)
    requires acc[..] == AccumulatedNormals(positions, indices, ops, face)
    modifies acc
    ensures acc[..] == AccumulatedNormals(positions, indices, ops, face + 1)
  {
    var k := 3 * face;
    var i0, i1, i2 := Corner(indices, k), Corner(indices, k + 1), Corner(indices, k + 2);
    AccumulatedStep(positions, indices, ops, face);
    var n := ops.faceNormal(positions[i0], positions[i1], positions[i2]);
    BlendInPlace(acc, i0, n, ops);
    BlendInPlace(acc, i1, n, ops);
    BlendInPlace(acc, i2, n, ops);
  }

  /**
   * The loop of `calculate`: a buffer of sentinels, overwritten face by face
   * in place.
   */
  method ComputeNormals(positions: seq<Vec3>, indices: Option<seq<u32>>, ops: NormalOps) returns (normals: seq<Vec3>)
    requires CornersInRange(|positions|, indices)
    ensures normals == AccumulatedNormals(positions, indices, ops, FaceCountOf(|positions|, indices))
  {
    var acc := new Vec3[|positions|](_ => Sentinel);
    assert acc[..] == AccumulatedNormals(positions, indices, ops, 0);
    for face := 0 to FaceCountOf(|positions|, indices)
      invariant acc[..] == AccumulatedNormals(positions, indices, ops, face)
    {
      AccumulateFace(acc, positions, indices, ops, face);
    }
    normals := acc[..];
  }

  const CubePositions: seq<Vec3> :=
    [Vec3(-1.0, -1.0, 1.0), Vec3(1.0, -1.0, 1.0), Vec3(1.0, 1.0, 1.0), Vec3(-1.0, 1.0, 1.0),
     Vec3(1.0, 1.0, -1.0), Vec3(-1.0, 1.0, -1.0), Vec3(-1.0, 1.0, 1.0), Vec3(1.0, 1.0, 1.0),
     Vec3(1.0, -1.0, -1.0), Vec3(1.0, 1.0, -1.0), Vec3(1.0, 1.0, 1.0), Vec3(1.0, -1.0, 1.0),
     Vec3(-1.0, -1.0, 1.0), Vec3(-1.0, 1.0, 1.0), Vec3(-1.0, 1.0, -1.0), Vec3(-1.0, -1.0, -1.0),
     Vec3(-1.0, 1.0, -1.0), Vec3(1.0, 1.0, -1.0), Vec3(1.0, -1.0, -1.0), Vec3(-1.0, -1.0, -1.0),
     Vec3(1.0, -1.0, 1.0), Vec3(-1.0, -1.0, 1.0), Vec3(-1.0, -1.0, -1.0), Vec3(1.0, -1.0, -1.0)]

  const CubeNormals: seq<Vec3> :=
    [Vec3(0.0, 0.0, 1.0), Vec3(0.0, 0.0, 1.0), Vec3(0.0, 0.0, 1.0), Vec3(0.0, 0.0, 1.0),
     Vec3(0.0, 1.0, 0.0), Vec3(0.0, 1.0, 0.0), Vec3(0.0, 1.0, 0.0), Vec3(0.0, 1.0, 0.0),
     Vec3(1.0, 0.0, 0.0), Vec3(1.0, 0.0, 0.0), Vec3(1.0, 0.0, 0.0), Vec3(1.0, 0.0, 0.0),
     Vec3(-1.0, 0.0, 0.0), Vec3(-1.0, 0.0, 0.0), Vec3(-1.0, 0.0, 0.0), Vec3(-1.0, 0.0, 0.0),
     Vec3(0.0, 0.0, -1.0), Vec3(0.0, 0.0, -1.0), Vec3(0.0, 0.0, -1.0), Vec3(0.0, 0.0, -1.0),
     Vec3(0.0, -1.0, 0.0), Vec3(0.0, -1.0, 0.0), Vec3(0.0, -1.0, 0.0), Vec3(0.0, -1.0, 0.0)]

  const CubeUvs: seq<Vec2> :=
    [Vec2(0.0, 0.0), Vec2(1.0, 0.0), Vec2(1.0, 1.0), Vec2(0.0, 1.0),
     Vec2(1.0, 0.0), Vec2(0.0, 0.0), Vec2(0.0, 1.0), Vec2(1.0, 1.0),
     Vec2(0.0, 0.0), Vec2(1.0, 0.0), Vec2(1.0, 1.0), Vec2(0.0, 1.0),
     Vec2(1.0, 0.0), Vec2(0.0, 0.0), Vec2(0.0, 1.0), Vec2(1.0, 1.0),
     Vec2(1.0, 0.0), Vec2(0.0, 0.0), Vec2(0.0, 1.0), Vec2(1.0, 1.0),
     Vec2(0.0, 0.0), Vec2(1.0, 0.0), Vec2(1.0, 1.0), Vec2(0.0, 1.0)]

  const CubeIndices: seq<u32> :=
    [0, 1, 2, 2, 3, 0,
     4, 5, 6, 6, 7, 4,
     8, 9, 10, 10, 11, 8,
     12, 13, 14, 14, 15, 12,
     16, 17, 18, 18, 19, 16,
     20, 21, 22, 22, 23, 20]

  /**
   * The cube fixture is well formed: 24 vertices with a normal and a uv
   * each, and 36 indices in which the six indices of face f (two triangles)
   * name only the four vertices 4f..4f+3 of that face.
   */
  lemma CubeIsWellFormed()
    ensures |CubePositions| == |CubeNormals| == |CubeUvs| == 24
    ensures |CubeIndices| == 36
    ensures forall i :: 0 <= i < 36 ==> CubeIndices[i] < 24 && CubeIndices[i] as int / 4 == i / 6
    ensures CornersInRange(24, Some(CubeIndices))
  {
  }

  class Mesh {
    var positions: seq<Vec3>
    var normals: Option<seq<Vec3>>
    var uvs: Option<seq<Vec2>>
    var weights: Option<seq<Vec4>>
    var joints: Option<seq<Joints4>>
    var indices: Option<seq<u32>>
    var verticesBuffer: Option<GpuBuffer>
    var indicesBuffer: Option<GpuBuffer>

    /** `Mesh::default()`: no vertices and every optional attribute absent. */
    constructor ()
      ensures positions == [] && normals == None && uvs == None
      ensures weights == None && joints == None && indices == None
      ensures verticesBuffer == None && indicesBuffer == None
    {
      positions, normals, uvs := [], None, None;
      weights, joints, indices := None, None, None;
      verticesBuffer, indicesBuffer := None, None;
    }

    /** `Mesh::cube()`: the 24-vertex, 36-index cube with normals and uvs and no GPU buffers. */
    constructor Cube()
      ensures positions == CubePositions && normals == Some(CubeNormals) && uvs == Some(CubeUvs)
      ensures indices == Some(CubeIndices) && weights == None && joints == None
      ensures verticesBuffer == None && indicesBuffer == None
      ensures CornersInRange(|positions|, indices)
    {
      positions, normals, uvs := CubePositions, Some(CubeNormals), Some(CubeUvs);
      weights, joints, indices := None, None, Some(CubeIndices);
      verticesBuffer, indicesBuffer := None, None;
      CubeIsWellFormed();
    }

    /**
     * `as_static`: present only when normals and uvs both are; then one
     * record per vertex up to the shortest attribute list.
     */
    function AsStatic(): (packed: Option<seq<StaticModelVertex>>)
      reads this
      ensures packed.Some? <==> normals.Some? && uvs.Some?
      ensures packed.Some? ==> |packed.value| == Min(|positions|, Min(|normals.value|, |uvs.value|))
      ensures packed.Some? ==> forall i :: 0 <= i < |packed.value| ==>
                packed.value[i] == StaticModelVertex(positions[i], normals.value[i], uvs.value[i])
    {
      if normals.Some? && uvs.Some? then
        var z := Zip(positions, Zip(normals.value, uvs.value));
        Some(seq(|z|, i requires 0 <= i < |z| => StaticModelVertex(z[i].0, z[i].1.0, z[i].1.1)))
      else
        None
    }

    /**
     * `as_skinned`: present only when normals, uvs, weights and joints all
     * are; then one record per vertex up to the shortest of the five lists.
     */
    function AsSkinned(): (packed: Option<seq<SkinnedModelVertex>>)
      reads this
      ensures packed.Some? <==> normals.Some? && uvs.Some? && weights.Some? && joints.Some?
      ensures packed.Some? ==>
                |packed.value| == Min(|positions|, Min(|normals.value|, Min(|uvs.value|, Min(|weights.value|, |joints.value|))))
      ensures packed.Some? ==> forall i :: 0 <= i < |packed.value| ==>
                packed.value[i] == SkinnedModelVertex(positions[i], normals.value[i], uvs.value[i], weights.value[i], joints.value[i])
    {
      if normals.Some? && uvs.Some? && weights.Some? && joints.Some? then
        var z := Zip(positions, Zip(normals.value, Zip(uvs.value, Zip(weights.value, joints.value))));
        Some(seq(|z|, i requires 0 <= i < |z| =>
          SkinnedModelVertex(z[i].0, z[i].1.0, z[i].1.1.0, z[i].1.1.1.0, z[i].1.1.1.1)))
      else
        None
    }

    /**
     * `is_skinned`: weights and joints are both present, which is what
     * decides, for a mesh that packs as static vertices, whether it also
     * packs as skinned ones.
     */
    predicate IsSkinned(): (skinned: bool)
      reads this
      ensures AsStatic().Some? ==> (skinned <==> AsSkinned().Some?)
      ensures AsStatic().None? ==> AsSkinned().None?
    {
      weights.Some? && joints.Some?
    }

    /** `indices_count`: the index count, or the vertex count without indices, cast to `u32`. */
    function IndicesCount(): (n: u32)
      reads this
      ensures indices.Some? ==> n as int == |indices.value| % U32Modulus
      ensures indices.None? ==> n as int == |positions| % U32Modulus
    {
      var count := if indices.Some? then |indices.value| else |positions|;
      (count % U32Modulus) as u32
    }

    /** Number of triangles `calculate` walks. */
    function FaceCount(): nat
      reads this
    {
      FaceCountOf(|positions|, indices)
    }

    /**
     * `calculate`: does nothing when normals exist (so a second call is a
     * no-op); otherwise builds one normal per vertex, starting from the
     * sentinel and folding in each face's normal in face order.
     */
    method Calculate(ops: NormalOps)
      requires normals.None? ==> CornersInRange(|positions|, indices)
      modifies this`normals
      ensures normals.Some?
      ensures old(normals).Some? ==> normals == old(normals)
      ensures old(normals).None? ==> normals == Some(AccumulatedNormals(positions, indices, ops, FaceCount()))
    {
      if normals.None? {
        var computed := ComputeNormals(positions, indices, ops);
        normals := Some(computed);
      }
    }

    /** `unload`: drops both GPU buffers; no other field changes. */
    method Unload()
      modifies this`verticesBuffer, this`indicesBuffer
      ensures verticesBuffer == None && indicesBuffer == None
    {
      verticesBuffer := None;
      indicesBuffer := None;
    }
  }
}

=== FILE: octree.dfy ===
/**
 * `Octree`: one map from index to node per level of detail (editor/octree.rs).
 *
 * The source's bodies do not compile as written (the level vector is built
 * with a closure that takes no argument, `store` calls a method `HashMap`
 * does not have, and `load` never returns a value); this module models the
 * evident intent: `depth` empty levels, `store` inserts into one level, and
 * `load` looks one level up.
 */
module Octrees {
  import opened Wrappers

  class Octree<Index(==), Node> {
    var nodes: seq<map<Index, Node>>
    var depth: nat

    /** One level per unit of depth. */
    ghost predicate Valid()
      reads this
    {
      |nodes| == depth
    }

    /** `Octree::new`: `depth` empty levels. */
    constructor (depth: nat)
      ensures Valid() && this.depth == depth
      ensures forall lod :: 0 <= lod < depth ==> nodes[lod] == map[]
    {
      nodes := seq(depth, _ => map[]);
      this.depth := depth;
    }

    /** `Octree::load`: the node stored at `index` on level `lod`, if any. */
    function Load(lod: nat, index: Index): (node: Option<Node>)
      reads this
      requires Valid() && lod < depth
      ensures node.Some? <==> index in nodes[lod]
      ensures node.Some? ==> node.value == nodes[lod][index]
    {
      Get(nodes[lod], index)
    }

    /** `Octree::store`: puts `node` at `index` on level `lod`; nothing else changes. */
    method Store(lod: nat, index: Index, node: Node)
      requires Valid() && lod < depth
      modifies this`nodes
      ensures Valid()
      ensures Load(lod, index) == Some(node)
      ensures forall l :: 0 <= l < depth && l != lod ==> nodes[l] == old(nodes[l])
      ensures nodes[lod].Keys == old(nodes[lod].Keys) + {index}
      ensures forall i :: i in old(nodes[lod]) && i != index ==> nodes[lod][i] == old(nodes[lod][i])
    {
      nodes := nodes[lod := nodes[lod][index := node]];
    }
  }
}

=== FILE: services.dfy ===
/**
 * The engine services the terrain talks to, reduced to what the terrain
 * relies on: `Assets` as a store of meshes behind ids, and the ECS `World`
 * as the list of spawned (Model, component) entities its query walks.
 */
module Services {
  import opened Math
  import opened Meshes

  /** `Id<Mesh>`; id 0 is the null id (`Id::new(0)`, `is_null()`). */
  type MeshId = nat

  const NullId: MeshId := 0

  class Assets {
    var meshes: map<MeshId, Mesh>
    var nextId: MeshId

    /** Every stored mesh has a non-null id below the next one to hand out. */
    ghost predicate Valid()
      reads this
    {
      nextId > NullId && forall id :: id in meshes ==> NullId < id < nextId
    }

    constructor ()
      ensures Valid() && meshes == map[]
    {
      meshes := map[];
      nextId := 1;
    }

    /** `Assets::store`: keeps the mesh under a fresh, non-null id. */
    method Store(mesh: Mesh) returns (id: MeshId)
      requires Valid()
      modifies this
      ensures Valid()
      ensures id != NullId && id !in old(meshes)
      ensures meshes == old(meshes)[id := mesh]
    {
      id := nextId;
      meshes := meshes[id := mesh];
      nextId := nextId + 1;
    }
  }

  /**
   * Between two states the store only grew: every old id still names the
   * same mesh object, and every new id names a freshly allocated one.
   */
  twostate predicate Grew(assets: Assets)
    reads assets
  {
    && (forall id :: id in old(assets.meshes) ==> id in assets.meshes && assets.meshes[id] == old(assets.meshes)[id])
    && (forall id :: id in assets.meshes && id !in old(assets.meshes) ==> fresh(assets.meshes[id]))
  }

  /** `Model`: the mesh it draws, the transform the terrain gives it, and whether it is hidden. */
  datatype Model = Model(mesh: MeshId, translate: Vec3i, scale: int, disabled: bool)

  /** The ECS world, seen through the one query the terrain runs: entities carrying a `Model` and a `C`. */
  class World<C> {
    var entities: seq<(Model, C)>

    constructor ()
      ensures entities == []
    {
      entities := [];
    }

    /** `World::spawn`: adds one entity. */
    method Spawn(model: Model, component: C)
      modifies this
      ensures entities == old(entities) + [(model, component)]
    {
      entities := entities + [(model, component)];
    }
  }

  /** Between two states entities were only appended. */
  twostate predicate Extended<C>(world: World<C>)
    reads world
  {
    |old(world.entities)| <= |world.entities| && world.entities[..|old(world.entities)|] == old(world.entities)
  }
}

=== FILE: skin.dfy ===
/**
 * Skeletal skins (src/assets/skin.rs): a skin's joints, ordered so that a
 * parent may come before its children, the index of joints the vertex
 * shader addresses with their inverse bind matrices, and the per-frame
 * `SkinTransform` that `Skin::transform` fills joint by joint and
 * `SkinTransform::matrices` turns into the shader's 32 matrices.
 */
module Skins {
  import opened Wrappers
  import opened Math

  /** `MAX_JOINTS`: the number of matrices the shader receives. */
  const MaxJoints: nat := 32

  /**
   * The matrix arithmetic the skin needs: the `cgmath` product,
   * `Transform::merge` and `Transform::matrix`.
   */
  datatype MatrixOps = MatrixOps(
    mul: (Mat4, Mat4) -> Mat4,
    merge: (Transform, Transform) -> Transform,
    matrix: Transform -> Mat4)

  /** One joint's transform for the current frame. */
  datatype JointTransform = JointTransform(id: nat, globalTransform: Mat4)

  /** `JointTransform::default()`: id 0 and the identity matrix. */
  const DefaultJointTransform: JointTransform := JointTransform(0, Identity)

  datatype Joint = Joint(localBindTransform: Transform, name: Option<string>, id: nat, parentId: Option<nat>)
  {
    /**
     * `Joint::transform`: the parent's global transform times this joint's
     * local matrix, the bind transform merged with the animation's local
     * transform when there is one.
     */
    function Posed(parent: Mat4, local: Option<Transform>, ops: MatrixOps): (t: JointTransform)
      ensures t.id == id
      ensures local.None? ==> t.globalTransform == ops.mul(parent, ops.matrix(localBindTransform))
      ensures local.Some? ==> t.globalTransform == ops.mul(parent, ops.matrix(ops.merge(localBindTransform, local.value)))
    {
      var bound := match local
        case Some(l) => ops.merge(localBindTransform, l)
        case None => localBindTransform;
      JointTransform(id, ops.mul(parent, ops.matrix(bound)))
    }
  }

  datatype JointIndex = JointIndex(id: nat, inverseBindMatrix: Option<Mat4>)

  /** Whether some entry of `ids` is `id`. */
  predicate Has(ids: seq<nat>, id: nat)
  {
    exists k :: 0 <= k < |ids| && ids[k] == id
  }

  /** `iter().position(|j| j.id == id).unwrap()`: where `id` first occurs. */
  function FirstPosition(ids: seq<nat>, id: nat): (i: nat)
    requires Has(ids, id)
    ensures i < |ids| && ids[i] == id
    ensures forall k :: 0 <= k < i ==> ids[k] != id
  {
    if ids[0] == id then 0
    else
      assert Has(ids[1..], id) by {
        var k :| 0 <= k < |ids| && ids[k] == id;
        assert ids[1..][k - 1] == id;
      }
      FirstPosition(ids[1..], id) + 1
  }

  /** The ids of `items`, in order, as `idOf` reads them. */
  function Ids<T>(items: seq<T>, idOf: T -> nat): (ids: seq<nat>)
    ensures |ids| == |items| && forall k :: 0 <= k < |items| ==> ids[k] == idOf(items[k])
  {
    seq(|items|, k requires 0 <= k < |items| => idOf(items[k]))
  }

  function JointIds(joints: seq<Joint>): seq<nat>
  {
    Ids(joints, (j: Joint) => j.id)
  }

  function TransformIds(transforms: seq<JointTransform>): seq<nat>
  {
    Ids(transforms, (t: JointTransform) => t.id)
  }

  /**
   * `Skin::new`: the skin keeps its joints and its index, with the i-th
   * inverse bind matrix stored into the i-th index entry for as many
   * entries as both lists have.
   */
  method NewSkin(joints: seq<Joint>, index: seq<JointIndex>, inverseBindMatrices: Option<seq<Mat4>>)
    returns (skin: Skin)
    ensures skin.joints == joints && |skin.index| == |index|
    ensures inverseBindMatrices.None? ==> skin.index == index
    ensures inverseBindMatrices.Some? ==> forall i :: 0 <= i < |index| ==>
      skin.index[i].id == index[i].id &&
      skin.index[i].inverseBindMatrix ==
        (if i < |inverseBindMatrices.value| then Some(inverseBindMatrices.value[i]) else index[i].inverseBindMatrix)
  {
    var entries := index;
    if inverseBindMatrices.Some? {
      var matrices := inverseBindMatrices.value;
      for i := 0 to Min(|index|, |matrices|)
        invariant |entries| == |index|
        invariant forall k :: 0 <= k < i ==> entries[k] == index[k].(inverseBindMatrix := Some(matrices[k]))
        invariant forall k :: i <= k < |index| ==> entries[k] == index[k]
      {
        entries := entries[i := entries[i].(inverseBindMatrix := Some(matrices[i]))];
      }
    }
    skin := Skin(joints, entries);
  }

  datatype Skin = Skin(joints: seq<Joint>, index: seq<JointIndex>)
  {
    predicate HasJoint(jointId: nat)
    {
      Has(JointIds(joints), jointId)
    }

    /** `Skin::index`: the position of the first joint with that id (the source unwraps, so one must exist). */
    function Index(jointId: nat): (i: nat)
      requires HasJoint(jointId)
      ensures i < |joints| && joints[i].id == jointId
      ensures forall k :: 0 <= k < i ==> joints[k].id != jointId
    {
      FirstPosition(JointIds(joints), jointId)
    }

    /** Every joint's parent id names a joint of the skin. */
    predicate ParentsExist()
    {
      forall i :: 0 <= i < |joints| && joints[i].parentId.Some? ==> HasJoint(joints[i].parentId.value)
    }

    /** The animation's local transform for `id`, if the frame has any. */
    static function LocalOf(locals: Option<map<nat, Transform>>, id: nat): Option<Transform>
    {
      match locals
      case Some(l) => Get(l, id)
      case None => None
    }

    /** The parent matrix joint i reads from `current`: the model transform for a root, else the current entry at its parent's position. */
    function ParentMatrix(current: seq<JointTransform>, i: nat, model: Mat4): Mat4
      requires i < |joints| <= |current| && ParentsExist()
    {
      match joints[i].parentId
      case None => model
      case Some(p) => current[Index(p)].globalTransform
    }

    /** What the loop of `Skin::transform` writes at position i when the entries read so far are `current`. */
    function Step(current: seq<JointTransform>, i: nat, model: Mat4, locals: Option<map<nat, Transform>>, ops: MatrixOps): JointTransform
      requires i < |joints| <= |current| && ParentsExist()
    {
      joints[i].Posed(ParentMatrix(current, i, model), LocalOf(locals, joints[i].id), ops)
    }

    /**
     * The joint transforms after the first n iterations of
     * `Skin::transform`, starting from `start`: entry i < n was written by
     * iteration i and carries joint i's id; entries from n on are untouched.
     */
    function Propagated(start: seq<JointTransform>, n: nat, model: Mat4, locals: Option<map<nat, Transform>>, ops: MatrixOps): (r: seq<JointTransform>)
      requires n <= |joints| <= |start| && ParentsExist()
      ensures |r| == |start|
      ensures forall k :: 0 <= k < n ==> r[k].id == joints[k].id
      ensures forall k :: n <= k < |start| ==> r[k] == start[k]
      decreases n
    {
      if n == 0 then start
      else
        var before := Propagated(start, n - 1, model, locals, ops);
        before[n - 1 := Step(before, n - 1, model, locals, ops)]
    }

    /**
     * Which parent transform joint i ends up with: a root uses the model
     * transform; a joint whose parent comes earlier in `joints` sees the
     * parent's new transform of this frame; any other joint sees the
     * entry the frame started with at its parent's position.
     */
    function ResolvedParent(start: seq<JointTransform>, final: seq<JointTransform>, i: nat, model: Mat4): Mat4
      requires i < |joints| <= |start| && |final| == |start| && ParentsExist()
    {
      match joints[i].parentId
      case None => model
      case Some(p) =>
        if Index(p) < i then final[Index(p)].globalTransform else start[Index(p)].globalTransform
    }

    /** Every entry written by the first n iterations is joint i posed on its resolved parent. */
    lemma {:induction false} PropagatedEntries(start: seq<JointTransform>, n: nat, model: Mat4, locals: Option<map<nat, Transform>>, ops: MatrixOps)
      requires n <= |joints| <= |start| && ParentsExist()
      ensures var final := Propagated(start, n, model, locals, ops);
        forall i :: 0 <= i < n ==>
          final[i] == joints[i].Posed(ResolvedParent(start, final, i, model), LocalOf(locals, joints[i].id), ops)
      decreases n
    {
      if n > 0 {
        var before := Propagated(start, n - 1, model, locals, ops);
        var final := Propagated(start, n, model, locals, ops);
        PropagatedEntries(start, n - 1, model, locals, ops);
        forall i | 0 <= i < n
          ensures final[i] == joints[i].Posed(ResolvedParent(start, final, i, model), LocalOf(locals, joints[i].id), ops)
        {
          if joints[i].parentId.Some? {
            var q := Index(joints[i].parentId.value);
            if q < i {
              assert before[q] == final[q];
            } else if i == n - 1 {
              assert before[q] == start[q];
            }
          }
        }
      }
    }

    /**
     * `Skin::transform`: for each joint in order, poses it on its parent's
     * matrix (the model transform for a root) and writes the result at the
     * joint's own position in `skinTransform.joints`.
     */
    method TransformJoints(skinTransform: SkinTransform, model: Mat4, locals: Option<map<nat, Transform>>, ops: MatrixOps)
      requires |joints| <= |skinTransform.joints| && ParentsExist()
      modifies skinTransform
      ensures skinTransform.joints == Propagated(old(skinTransform.joints), |joints|, model, locals, ops)
    {
      for i := 0 to |joints|
        invariant skinTransform.joints == Propagated(old(skinTransform.joints), i, model, locals, ops)
      {
        var joint := joints[i];
        var parent := match joint.parentId
          case Some(p) => skinTransform.joints[Index(p)].globalTransform
          case None => model;
        var local := match locals
          case Some(l) => Get(l, joint.id)
          case None => None;
        skinTransform.joints := skinTransform.joints[i := joint.Posed(parent, local, ops)];
      }
    }
  }

  /** The first joint transform with that id (the source unwraps, so one must exist). */
  function FindById(transforms: seq<JointTransform>, id: nat): (t: JointTransform)
    requires Has(TransformIds(transforms), id)
    ensures t.id == id
  {
    transforms[FirstPosition(TransformIds(transforms), id)]
  }

  /** The matrix `matrices` emits for one index entry: the joint's global transform, times the inverse bind matrix when there is one. */
  function SkinningMatrix(global: Mat4, entry: JointIndex, ops: MatrixOps): Mat4
  {
    match entry.inverseBindMatrix
    case Some(ibm) => ops.mul(global, ibm)
    case None => global
  }

  class SkinTransform {
    var joints: seq<JointTransform>

    /** `SkinTransform::new`: `MAX_JOINTS` default joint transforms. */
    constructor ()
      ensures |joints| == MaxJoints
      ensures forall i :: 0 <= i < |joints| ==> joints[i] == DefaultJointTransform
    {
      joints := seq(MaxJoints, _ => DefaultJointTransform);
    }

    /**
     * `SkinTransform::matrices`: one matrix per index entry, from the first
     * joint transform with the entry's id, then identity matrices up to
     * `MAX_JOINTS`.
     */
    method Matrices(index: seq<JointIndex>, ops: MatrixOps) returns (result: seq<Mat4>)
      requires forall k :: 0 <= k < |index| ==> Has(TransformIds(joints), index[k].id)
      ensures |result| == Max(|index|, MaxJoints)
      ensures forall k :: 0 <= k < |index| ==>
        result[k] == SkinningMatrix(FindById(joints, index[k].id).globalTransform, index[k], ops)
      ensures forall k :: |index| <= k < |result| ==> result[k] == Identity
    {
      var transforms := joints;
      result := seq(|index|, k requires 0 <= k < |index| =>
        SkinningMatrix(FindById(transforms, index[k].id).globalTransform, index[k], ops));
      while |result| < MaxJoints
        invariant |index| <= |result| <= Max(|index|, MaxJoints)
        invariant forall k :: 0 <= k < |index| ==>
          result[k] == SkinningMatrix(FindById(joints, index[k].id).globalTransform, index[k], ops)
        invariant forall k :: |index| <= k < |result| ==> result[k] == Identity
        decreases MaxJoints - |result|
      {
        result := result + [Identity];
      }
    }
  }
}

=== FILE: terrain.dfy ===
/**
 * The terrain's ring level-of-detail update: when the viewer has moved far
 * enough, every chunk is disabled, then each ring's lattice of chunk
 * positions around the viewer is walked (ring r at 2^r times the chunk
 * size, skipping the box the previous ring covered), each chunk visited is
 * created if missing, polygonized if dirty and enabled; finally every
 * terrain model is hidden unless its chunk is present, enabled and has a
 * mesh.
 */
module Terrains {
  import opened Wrappers
  import opened Math
  import opened Lod
  import opened Meshes
  import opened Services
  import opened Chunks

  const NumberOfRings: nat := 3

  /** Whether the ring count is odd (declared next to the ring count, not used by the update). */
  const IsOddRing: bool := NumberOfRings % 2 != 0

  /** A half-open box of lattice points: lo <= p < hi on every axis. */
  datatype Box = Box(lo: Vec3i, hi: Vec3i)

  predicate Inside(k: Vec3i, b: Box)
  {
    b.lo.x <= k.x < b.hi.x && b.lo.y <= k.y < b.hi.y && b.lo.z <= k.z < b.hi.z
  }

  /** The box widened by `extent` on every side. */
  function Grow(b: Box, extent: int): Box
  {
    Box(Vec3i(b.lo.x - extent, b.lo.y - extent, b.lo.z - extent),
        Vec3i(b.hi.x + extent, b.hi.y + extent, b.hi.z + extent))
  }

  /** `(from..to).step_by(step)`: from, from + step, ... while below `to`; strictly increasing, inside the range. */
  function Steps(lo: int, hi: int, step: nat): (s: seq<int>)
    requires step > 0
    decreases hi - lo
    ensures forall i :: 0 <= i < |s| ==> lo <= s[i] < hi
    ensures forall i, j :: 0 <= i < j < |s| ==> s[i] < s[j]
  {
    if lo < hi then [lo] + Steps(lo + step, hi, step) else []
  }

  /** Euclidean remainder is determined by any quotient-remainder split of its argument. */
  lemma RemainderUnique(a: int, q: int, rem: int, step: nat)
    requires step > 0 && 0 <= rem < step && a == step * q + rem
    ensures a % step == rem
  {
    var q2 := a / step;
    var d := q - q2;
    assert step * d == a % step - rem by {
      assert step * q2 + a % step == a;
      assert step * d == step * q - step * q2;
    }
  }

  lemma ShiftedRemainder(a: int, step: nat)
    requires step > 0
    ensures (a - step) % step == a % step
  {
    var q := a / step;
    assert a == step * q + a % step;
    assert a - step == step * (q - 1) + a % step;
    RemainderUnique(a - step, q - 1, a % step, step);
  }

  /** The values `step_by` yields are exactly the points of the range on the lattice through `lo`. */
  lemma {:induction false} StepsMembers(lo: int, hi: int, step: nat, v: int)
    requires step > 0
    ensures v in Steps(lo, hi, step) <==> lo <= v < hi && (v - lo) % step == 0
    decreases hi - lo
  {
    if lo < hi {
      StepsMembers(lo + step, hi, step, v);
      ShiftedRemainder(v - lo, step);
      assert Steps(lo, hi, step) == [lo] + Steps(lo + step, hi, step);
    }
  }

  /** Edge of a ring-r chunk in world units: 16 * 2^r. */
  function RingChunkSize(r: nat): (size: nat)
    ensures size >= ChunkSize
  {
    ChunkSize * Pow2(r)
  }

  /** How far ring r reaches beyond the box inside it: two chunks per view-distance step for the innermost ring, one for the others. */
  function ViewExtent(r: nat, viewDistance: int): int
  {
    viewDistance * (if r == 0 then 2 * RingChunkSize(r) else RingChunkSize(r))
  }

  /** The box ring r walks: the previous ring's box (the single point `origin` before ring 0) widened by the ring's view extent. */
  function RingBox(r: nat, origin: Vec3i, viewDistance: int): Box
    decreases r, 1
  {
    Grow(InnerBox(r, origin, viewDistance), ViewExtent(r, viewDistance))
  }

  /** The box inside ring r that the ring skips: the previous ring's box, or the empty box at `origin` for ring 0. */
  function InnerBox(r: nat, origin: Vec3i, viewDistance: int): Box
    decreases r, 0
  {
    if r == 0 then Box(origin, origin) else RingBox(r - 1, origin, viewDistance)
  }

  lemma GrowTwice(b: Box, e1: int, e2: int)
    ensures Grow(Grow(b, e1), e2) == Grow(b, e1 + e2)
  {
  }

  lemma Doubling(v: int, c: int)
    ensures v * (2 * c) == 2 * (v * c)
    ensures 2 * v * c == 2 * (v * c)
    ensures 2 * v * (2 * c) == 4 * (v * c)
  {
  }

  /** Ring r's box reaches 2 * viewDistance ring-r chunks from the origin on every side. */
  lemma {:induction false} RingBoxHalfWidth(r: nat, origin: Vec3i, viewDistance: int)
    ensures RingBox(r, origin, viewDistance) == Grow(Box(origin, origin), 2 * viewDistance * RingChunkSize(r))
  {
    if r > 0 {
      RingBoxHalfWidth(r - 1, origin, viewDistance);
      var c := RingChunkSize(r - 1);
      assert RingChunkSize(r) == 2 * c;
      Doubling(viewDistance, c);
      GrowTwice(Box(origin, origin), 2 * (viewDistance * c), 2 * (viewDistance * c));
    }
  }

  /** Whether the walk of ring r between `inner` and `outer` reaches the chunk position k. */
  predicate Visits(k: Vec3i, r: nat, inner: Box, outer: Box)
  {
    && k.x in Steps(outer.lo.x, outer.hi.x, RingChunkSize(r))
    && k.y in Steps(outer.lo.y, outer.hi.y, RingChunkSize(r))
    && k.z in Steps(outer.lo.z, outer.hi.z, RingChunkSize(r))
    && !(r != 0 && Inside(k, inner))
  }

  /** Whether ring r of an update around `origin` visits k. */
  predicate InRing(k: Vec3i, r: nat, origin: Vec3i, viewDistance: int)
  {
    Visits(k, r, InnerBox(r, origin, viewDistance), RingBox(r, origin, viewDistance))
  }

  /** A walk over `outer` at ring r's spacing visits exactly the lattice points of the box outside `inner` (the inner box only for r > 0). */
  lemma VisitsMembers(k: Vec3i, r: nat, inner: Box, outer: Box)
    ensures Visits(k, r, inner, outer) <==>
      var size := RingChunkSize(r);
      && Inside(k, outer)
      && (k.x - outer.lo.x) % size == 0
      && (k.y - outer.lo.y) % size == 0
      && (k.z - outer.lo.z) % size == 0
      && !(r != 0 && Inside(k, inner))
  {
    StepsMembers(outer.lo.x, outer.hi.x, RingChunkSize(r), k.x);
    StepsMembers(outer.lo.y, outer.hi.y, RingChunkSize(r), k.y);
    StepsMembers(outer.lo.z, outer.hi.z, RingChunkSize(r), k.z);
  }

  /** Ring r visits exactly the points of its box that lie on its lattice through the box corner and outside the previous ring's box. */
  lemma RingMembers(k: Vec3i, r: nat, origin: Vec3i, viewDistance: int)
    ensures InRing(k, r, origin, viewDistance) <==>
      var outer := RingBox(r, origin, viewDistance);
      var size := RingChunkSize(r);
      && Inside(k, outer)
      && (k.x - outer.lo.x) % size == 0
      && (k.y - outer.lo.y) % size == 0
      && (k.z - outer.lo.z) % size == 0
      && !(r != 0 && Inside(k, InnerBox(r, origin, viewDistance)))
  {
    VisitsMembers(k, r, InnerBox(r, origin, viewDistance), RingBox(r, origin, viewDistance));
  }

  /** The chunk-aligned point at or below the viewer on every axis (`floor(v / 16) * 16`). */
  function ChunkOrigin(viewer: Vec3i): (o: Vec3i)
    ensures o.x <= viewer.x < o.x + ChunkSize && o.x % ChunkSize == 0
    ensures o.y <= viewer.y < o.y + ChunkSize && o.y % ChunkSize == 0
    ensures o.z <= viewer.z < o.z + ChunkSize && o.z % ChunkSize == 0
  {
    Vec3i(viewer.x / ChunkSize * ChunkSize, viewer.y / ChunkSize * ChunkSize, viewer.z / ChunkSize * ChunkSize)
  }

  function SquaredDistance(a: Vec3i, b: Vec3i): (d: int)
    ensures d >= 0
    ensures d == 0 <==> a == b
  {
    var dx := a.x - b.x;
    var dy := a.y - b.y;
    var dz := a.z - b.z;
    dx * dx + dy * dy + dz * dz
  }

  /** A ring's map with every chunk disabled. */
  function Disabled(ring: map<Vec3i, Chunk>): (d: map<Vec3i, Chunk>)
    ensures d.Keys == ring.Keys
    ensures forall k :: k in d ==> d[k] == ring[k].(disabled := true)
  {
    map k | k in ring :: ring[k].(disabled := true)
  }

  /** The chunk a visit of k starts from: the stored one, or a new one at ring r. */
  function Prior(ring: map<Vec3i, Chunk>, k: Vec3i, r: nat): (c: Chunk)
    ensures k in ring ==> c == ring[k]
    ensures k !in ring ==> c == NewChunk(k, r)
  {
    if k in ring then ring[k] else NewChunk(k, r)
  }

  /** One ring's walk: the ring, the box it skips, the box it covers, and the field it polygonizes. */
  datatype Walk = Walk(r: nat, inner: Box, outer: Box, mc: MarchingCubes, density: DensityAt)
  {
    /** The x values the outer loop takes. */
    function Xs(): seq<int>
    {
      Steps(outer.lo.x, outer.hi.x, RingChunkSize(r))
    }

    /** The y values the middle loop takes. */
    function Ys(): seq<int>
    {
      Steps(outer.lo.y, outer.hi.y, RingChunkSize(r))
    }

    /** The z values the inner loop takes. */
    function Zs(): seq<int>
    {
      Steps(outer.lo.z, outer.hi.z, RingChunkSize(r))
    }

    /** Whether the walk visits position k. */
    predicate Reaches(k: Vec3i)
    {
      Visits(k, r, inner, outer)
    }
  }

  /**
   * What the walk of a ring makes of the ring's map: the chunks it visits
   * are present and refreshed from their prior value, and every other
   * chunk is kept as it was.
   */
  ghost predicate RingPassed(w: Walk, before: map<Vec3i, Chunk>, after: map<Vec3i, Chunk>)
  {
    && (forall k :: k in after <==> k in before || w.Reaches(k))
    && (forall k :: k in after && !w.Reaches(k) ==> after[k] == before[k])
    && (forall k :: w.Reaches(k) ==> k in after && Refreshed(Prior(before, k, w.r), after[k], w.mc, w.density))
  }

  /** How far the three nested loops of a ring walk have got: the x values done, the current x, the y values done for it, the current y, the z values done for it. */
  datatype Cursor = Cursor(xs: seq<int>, x: int, ys: seq<int>, y: int, zs: seq<int>)

  /** Whether the walk has already reached position k. */
  predicate Covered(k: Vec3i, c: Cursor)
  {
    k.x in c.xs || (k.x == c.x && (k.y in c.ys || (k.y == c.y && k.z in c.zs)))
  }

  /** The ring walk so far: `RingPassed` restricted to the positions already covered. */
  ghost predicate Progress(w: Walk, before: map<Vec3i, Chunk>, after: map<Vec3i, Chunk>, c: Cursor)
  {
    && (forall k :: k in after <==> k in before || (w.Reaches(k) && Covered(k, c)))
    && (forall k :: k in after && !(w.Reaches(k) && Covered(k, c)) ==> after[k] == before[k])
    && (forall k :: w.Reaches(k) && Covered(k, c) ==>
          k in after && Refreshed(Prior(before, k, w.r), after[k], w.mc, w.density))
  }

  lemma ProgressCongruent(w: Walk, before: map<Vec3i, Chunk>, after: map<Vec3i, Chunk>, c: Cursor, d: Cursor)
    requires Progress(w, before, after, c)
    requires forall k :: w.Reaches(k) ==> (Covered(k, c) <==> Covered(k, d))
    ensures Progress(w, before, after, d)
  {
  }

  /** Entering a new x: nothing at that x is covered yet. */
  lemma StartPlane(w: Walk, before: map<Vec3i, Chunk>, after: map<Vec3i, Chunk>, xs: seq<int>, x: int)
    requires Progress(w, before, after, Cursor(xs, 0, [], 0, []))
    ensures Progress(w, before, after, Cursor(xs, x, [], 0, []))
  {
    ProgressCongruent(w, before, after, Cursor(xs, 0, [], 0, []), Cursor(xs, x, [], 0, []));
  }

  /** Entering a new y: nothing at that x and y is covered yet. */
  lemma StartRow(w: Walk, before: map<Vec3i, Chunk>, after: map<Vec3i, Chunk>, xs: seq<int>, x: int, ys: seq<int>, y: int)
    requires Progress(w, before, after, Cursor(xs, x, ys, 0, []))
    ensures Progress(w, before, after, Cursor(xs, x, ys, y, []))
  {
    ProgressCongruent(w, before, after, Cursor(xs, x, ys, 0, []), Cursor(xs, x, ys, y, []));
  }

  /** Every z of the lattice done at (x, ys[j]): that y is done. */
  lemma EndRow(w: Walk, before: map<Vec3i, Chunk>, after: map<Vec3i, Chunk>, xs: seq<int>, x: int, ys: seq<int>, j: nat)
    requires j < |ys|
    requires Progress(w, before, after, Cursor(xs, x, ys[..j], ys[j], w.Zs()))
    ensures Progress(w, before, after, Cursor(xs, x, ys[..j + 1], 0, []))
  {
    Extend(ys, j);
    ProgressCongruent(w, before, after, Cursor(xs, x, ys[..j], ys[j], w.Zs()), Cursor(xs, x, ys[..j + 1], 0, []));
  }

  /** Every y of the lattice done at xs[i]: that x is done. */
  lemma EndPlane(w: Walk, before: map<Vec3i, Chunk>, after: map<Vec3i, Chunk>, xs: seq<int>, i: nat)
    requires i < |xs|
    requires Progress(w, before, after, Cursor(xs[..i], xs[i], w.Ys(), 0, []))
    ensures Progress(w, before, after, Cursor(xs[..i + 1], 0, [], 0, []))
  {
    Extend(xs, i);
    ProgressCongruent(w, before, after, Cursor(xs[..i], xs[i], w.Ys(), 0, []), Cursor(xs[..i + 1], 0, [], 0, []));
  }

  /** One more position covered: the map changes at most there, and only if the position is visited. */
  lemma ProgressStep(w: Walk, before: map<Vec3i, Chunk>, after: map<Vec3i, Chunk>, c: Cursor, d: Cursor, k: Vec3i,
                     next: map<Vec3i, Chunk>)
    requires Progress(w, before, after, c)
    requires !Covered(k, c)
    requires forall j :: Covered(j, d) <==> Covered(j, c) || j == k
    requires w.Reaches(k) ==>
      k in next && next == after[k := next[k]] && Refreshed(Prior(after, k, w.r), next[k], w.mc, w.density)
    requires !w.Reaches(k) ==> next == after
    ensures Progress(w, before, next, d)
  {
    if w.Reaches(k) {
      assert Prior(after, k, w.r) == Prior(before, k, w.r);
    }
  }

  /** A walk that has covered every x of the ring's lattice has passed the ring. */
  lemma ProgressDone(w: Walk, before: map<Vec3i, Chunk>, after: map<Vec3i, Chunk>, xs: seq<int>)
    requires xs == w.Xs()
    requires Progress(w, before, after, Cursor(xs[..|xs|], 0, [], 0, []))
    ensures RingPassed(w, before, after)
  {
    assert xs[..|xs|] == xs;
  }

  /** A strictly increasing sequence does not repeat its i-th value before position i. */
  lemma NotEarlier(s: seq<int>, i: nat)
    requires forall a, b :: 0 <= a < b < |s| ==> s[a] < s[b]
    requires i < |s|
    ensures s[i] !in s[..i]
  {
  }

  lemma Extend(s: seq<int>, i: nat)
    requires i < |s|
    ensures forall v :: v in s[..i + 1] <==> v in s[..i] || v == s[i]
  {
    assert s[..i + 1] == s[..i] + [s[i]];
  }

  /** Every ring maps a position to the chunk at that position and ring. */
  ghost predicate Keyed(rings: seq<map<Vec3i, Chunk>>)
  {
    forall r, k :: 0 <= r < |rings| && k in rings[r] ==> rings[r][k].position == k && rings[r][k].ring == r
  }

  lemma KeyedUpdate(rings: seq<map<Vec3i, Chunk>>, r: nat, k: Vec3i, c: Chunk)
    requires Keyed(rings) && r < |rings| && c.position == k && c.ring == r
    ensures Keyed(rings[r := rings[r][k := c]])
  {
  }

  /** Every chunk's mesh id, if it has one, is among `ids`. */
  ghost predicate MeshesIn(rings: seq<map<Vec3i, Chunk>>, ids: set<MeshId>)
  {
    forall r, k :: 0 <= r < |rings| && k in rings[r] && rings[r][k].mesh.Some? ==> rings[r][k].mesh.value in ids
  }

  lemma MeshesInUpdate(rings: seq<map<Vec3i, Chunk>>, ids: set<MeshId>, more: set<MeshId>, r: nat, k: Vec3i, c: Chunk)
    requires MeshesIn(rings, ids) && ids <= more && r < |rings|
    requires c.mesh.Some? ==> c.mesh.value in more
    ensures MeshesIn(rings[r := rings[r][k := c]], more)
  {
  }

  /** The walk of ring r in an update around `origin`. */
  function RingWalk(r: nat, origin: Vec3i, viewDistance: int, mc: MarchingCubes, density: DensityAt): (w: Walk)
    ensures w.r == r && w.mc == mc && w.density == density
    ensures w.inner == InnerBox(r, origin, viewDistance) && w.outer == RingBox(r, origin, viewDistance)
  {
    Walk(r, InnerBox(r, origin, viewDistance), RingBox(r, origin, viewDistance), mc, density)
  }

  lemma MeshesInDisabled(before: seq<map<Vec3i, Chunk>>, after: seq<map<Vec3i, Chunk>>, ids: set<MeshId>)
    requires MeshesIn(before, ids) && |after| == |before|
    requires forall r :: 0 <= r < |before| ==> after[r] == Disabled(before[r])
    ensures MeshesIn(after, ids)
  {
  }

  /**
   * A terrain entity draws its chunk: its tile names a chunk of one of the
   * rings, and its model shows that chunk's mesh at the chunk's position
   * and at the ring's scale.
   */
  ghost predicate Draws(rings: seq<map<Vec3i, Chunk>>, e: (Model, Tile))
  {
    && e.1.ring < |rings| && e.1.position in rings[e.1.ring]
    && rings[e.1.ring][e.1.position].mesh == Some(e.0.mesh)
    && e.0.translate == e.1.position && e.0.scale == Pow2(e.1.ring)
  }

  /** Every terrain entity draws its chunk. */
  ghost predicate Drawn(rings: seq<map<Vec3i, Chunk>>, entities: seq<(Model, Tile)>)
  {
    forall i :: 0 <= i < |entities| ==> Draws(rings, entities[i])
  }

  /** Entities keep drawing their chunks as long as every chunk that has a mesh stays in its ring with that mesh. */
  lemma DrawnKept(rings: seq<map<Vec3i, Chunk>>, after: seq<map<Vec3i, Chunk>>, entities: seq<(Model, Tile)>)
    requires Drawn(rings, entities) && |after| == |rings|
    requires forall r, k :: 0 <= r < |rings| && k in rings[r] && rings[r][k].mesh.Some? ==>
      k in after[r] && after[r][k].mesh == rings[r][k].mesh
    ensures Drawn(after, entities)
  {
    forall i | 0 <= i < |entities|
      ensures Draws(after, entities[i])
    {
      assert Draws(rings, entities[i]);
    }
  }

  /**
   * One visit keeps every entity drawing its chunk: the visited chunk keeps
   * any mesh it had, and the model added for a chunk that gets its first
   * mesh draws that chunk.
   */
  lemma DrawnVisit(rings: seq<map<Vec3i, Chunk>>, entities: seq<(Model, Tile)>, r: nat, k: Vec3i, next: Chunk,
                   after: seq<(Model, Tile)>, mc: MarchingCubes, density: DensityAt)
    requires Drawn(rings, entities) && Keyed(rings) && r < |rings|
    requires Refreshed(Prior(rings[r], k, r), next, mc, density)
    requires Spawns(Prior(rings[r], k, r), mc, density) ==>
      after == entities + [(Model(next.mesh.value, k, Pow2(r), false), Tile(k, r))]
    requires !Spawns(Prior(rings[r], k, r), mc, density) ==> after == entities
    ensures Drawn(rings[r := rings[r][k := next]], after)
  {
    var prior := Prior(rings[r], k, r);
    var updated := rings[r := rings[r][k := next]];
    RefreshedKeepsMesh(prior, next, mc, density);
    DrawnKept(rings, updated, entities);
    if Spawns(prior, mc, density) {
      assert Draws(updated, after[|entities|]);
    }
  }

  /**
   * Every chunk that has a mesh has exactly one model: some entity's tile
   * names it, and no two entities share a tile.
   */
  ghost predicate Modelled(rings: seq<map<Vec3i, Chunk>>, entities: seq<(Model, Tile)>)
  {
    && (forall r, k :: 0 <= r < |rings| && k in rings[r] && rings[r][k].mesh.Some? ==>
          exists i :: 0 <= i < |entities| && entities[i].1 == Tile(k, r))
    && (forall i, j :: 0 <= i < j < |entities| ==> entities[i].1 != entities[j].1)
  }

  /** Chunks keep their models as long as every chunk that has a mesh had one before, at the same key, and the tiles stay as they were. */
  lemma ModelledKept(rings: seq<map<Vec3i, Chunk>>, after: seq<map<Vec3i, Chunk>>,
                     entities: seq<(Model, Tile)>, retagged: seq<(Model, Tile)>)
    requires Modelled(rings, entities) && |after| == |rings|
    requires forall r, k :: 0 <= r < |after| && k in after[r] && after[r][k].mesh.Some? ==>
      k in rings[r] && rings[r][k].mesh.Some?
    requires |retagged| == |entities| && forall i :: 0 <= i < |entities| ==> retagged[i].1 == entities[i].1
    ensures Modelled(after, retagged)
  {
    forall r: nat, k: Vec3i | 0 <= r < |after| && k in after[r] && after[r][k].mesh.Some?
      ensures exists i :: 0 <= i < |retagged| && retagged[i].1 == Tile(k, r)
    {
      var i :| 0 <= i < |entities| && entities[i].1 == Tile(k, r);
      assert retagged[i].1 == Tile(k, r);
    }
    forall i, j | 0 <= i < j < |retagged|
      ensures retagged[i].1 != retagged[j].1
    {
      assert entities[i].1 != entities[j].1;
    }
  }

  /**
   * One visit keeps every meshed chunk modelled exactly once: a chunk that
   * already had a mesh already had its model, and a chunk that gets its
   * first mesh had none, since every model draws a chunk with a mesh.
   */
  lemma ModelledVisit(rings: seq<map<Vec3i, Chunk>>, entities: seq<(Model, Tile)>, r: nat, k: Vec3i, next: Chunk,
                      after: seq<(Model, Tile)>, mc: MarchingCubes, density: DensityAt)
    requires Modelled(rings, entities) && Drawn(rings, entities) && r < |rings|
    requires Refreshed(Prior(rings[r], k, r), next, mc, density)
    requires Spawns(Prior(rings[r], k, r), mc, density) ==>
      after == entities + [(Model(next.mesh.value, k, Pow2(r), false), Tile(k, r))]
    requires !Spawns(Prior(rings[r], k, r), mc, density) ==> after == entities
    ensures Modelled(rings[r := rings[r][k := next]], after)
  {
    var prior := Prior(rings[r], k, r);
    var updated: seq<map<Vec3i, Chunk>> := rings[r := rings[r][k := next]];
    RefreshedKeepsMesh(prior, next, mc, density);
    assert next.mesh.Some? && prior.mesh.None? ==> Spawns(prior, mc, density);
    forall q: nat, j: Vec3i | 0 <= q < |updated| && j in updated[q] && updated[q][j].mesh.Some?
      ensures exists i :: 0 <= i < |after| && after[i].1 == Tile(j, q)
    {
      if q == r && j == k && prior.mesh.None? {
        assert after[|entities|].1 == Tile(k, r);
      } else {
        assert j in rings[q] && rings[q][j].mesh.Some?;
        var i :| 0 <= i < |entities| && entities[i].1 == Tile(j, q);
        assert after[i] == entities[i];
      }
    }
    if Spawns(prior, mc, density) {
      forall i | 0 <= i < |entities|
        ensures entities[i].1 != Tile(k, r)
      {
        assert Draws(rings, entities[i]);
      }
    }
  }

  /** A visit keeps the mesh a chunk already has, and the chunk's position and ring. */
  lemma RefreshedKeepsMesh(prior: Chunk, after: Chunk, mc: MarchingCubes, density: DensityAt)
    requires Refreshed(prior, after, mc, density)
    ensures after.position == prior.position && after.ring == prior.ring
    ensures prior.mesh.Some? ==> after.mesh == prior.mesh
    ensures after.mesh.None? ==> prior.mesh.None?
  {
  }

  /**
   * After a pass that started by disabling every chunk, a model that draws
   * its chunk is hidden (its chunk missing or disabled, or its mesh null)
   * exactly when the pass did not reach its chunk.
   */
  lemma HiddenIffUnreached(before: seq<map<Vec3i, Chunk>>, rings: seq<map<Vec3i, Chunk>>, entities: seq<(Model, Tile)>,
                           ids: set<MeshId>, origin: Vec3i, viewDistance: int, mc: MarchingCubes, density: DensityAt)
    requires |before| == |rings| == NumberOfRings
    requires Drawn(rings, entities) && MeshesIn(rings, ids) && NullId !in ids
    requires forall r :: 0 <= r < NumberOfRings ==>
      RingPassed(RingWalk(r, origin, viewDistance, mc, density), Disabled(before[r]), rings[r])
    ensures forall i :: 0 <= i < |entities| ==>
      var t := entities[i].1;
      (t.position !in rings[t.ring] || rings[t.ring][t.position].disabled || entities[i].0.mesh == NullId)
        <==> !RingWalk(t.ring, origin, viewDistance, mc, density).Reaches(t.position)
  {
    forall i | 0 <= i < |entities|
      ensures var t := entities[i].1;
        (t.position !in rings[t.ring] || rings[t.ring][t.position].disabled || entities[i].0.mesh == NullId)
          <==> !RingWalk(t.ring, origin, viewDistance, mc, density).Reaches(t.position)
    {
      var t := entities[i].1;
      assert Draws(rings, entities[i]);
      var w := RingWalk(t.ring, origin, viewDistance, mc, density);
      assert RingPassed(w, Disabled(before[t.ring]), rings[t.ring]);
      assert rings[t.ring][t.position].mesh.value in ids;
    }
  }

  /** Whether a visit gives the chunk its first mesh, and with it a new model in the world. */
  predicate Spawns(chunk: Chunk, mc: MarchingCubes, density: DensityAt)
  {
    chunk.Dirty() && chunk.mesh.None? && |chunk.Surface(mc, density)| > 0
  }

  /**
   * The part of the update pass that acts on one chunk: a dirty chunk is
   * polygonized (its mesh stays or becomes one the store holds, without an
   * index buffer, holding the chunk's surface), a model is added for a
   * chunk that gets its first mesh, and the chunk is enabled. A clean
   * chunk leaves the store, the stored meshes and the world as they were.
   */
  method Refresh(chunk: Chunk, assets: Assets, world: World<Tile>, mc: MarchingCubes, density: DensityAt, ops: NormalOps)
    returns (next: Chunk)
    requires assets.Valid()
    requires chunk.mesh.Some? ==> chunk.mesh.value in Unindexed(assets)
    modifies assets, world, assets.meshes.Values
    ensures assets.Valid() && Grew(assets) && Extended(world)
    ensures old(Unindexed(assets)) <= Unindexed(assets)
    ensures next.mesh.Some? ==> next.mesh.value in Unindexed(assets)
    ensures Refreshed(chunk, next, mc, density)
    ensures !chunk.Dirty() ==> unchanged(assets) && forall m :: m in old(assets.meshes.Values) ==> unchanged(m)
    ensures forall m :: m in old(assets.meshes.Values) && m !in old(MeshObjects(assets, chunk.mesh)) ==> unchanged(m)
    ensures chunk.Dirty() && |chunk.Surface(mc, density)| > 0 ==>
      Carries(assets.meshes[next.mesh.value], chunk.Surface(mc, density), chunk.ring, ops)
    ensures Spawns(chunk, mc, density) ==>
      world.entities == old(world.entities) + [(Model(next.mesh.value, chunk.position, Pow2(chunk.ring), false), chunk.ToTile())]
    ensures !Spawns(chunk, mc, density) ==> world.entities == old(world.entities)
  {
    next := chunk;
    if !next.hollow && next.changed {
      next := next.Polygonize(assets, world, mc, density, ops);
    }
    next := next.(disabled := false);
  }

  class Terrain {
    var rings: seq<map<Vec3i, Chunk>>
    var lastViewerPosition: Option<Vec3i>
    var updateIfMovedBy: int
    var viewDistance: int

    /** Three rings, each mapping a position to the chunk at that position and ring. */
    ghost predicate Valid()
      reads this
    {
      |rings| == NumberOfRings && Keyed(rings)
    }

    /** Every chunk's mesh id is in the store, and its mesh has no index buffer. */
    ghost predicate MeshesReady(assets: Assets)
      reads this, assets, assets.meshes.Values
    {
      MeshesIn(rings, Unindexed(assets))
    }

    ghost predicate Ready(assets: Assets, world: World<Tile>)
      reads this, assets, assets.meshes.Values, world
    {
      Valid() && assets.Valid() && MeshesReady(assets) && Drawn(rings, world.entities) && Modelled(rings, world.entities)
    }

    /** `Terrain::new`: three empty rings, no viewer yet, view distance 1, and a threshold of half a chunk, squared. */
    constructor ()
      ensures Valid()
      ensures rings == [map[], map[], map[]] && lastViewerPosition == None
      ensures updateIfMovedBy == 64 && viewDistance == 1
    {
      var half := ChunkSize / 2;
      rings := [map[], map[], map[]];
      updateIfMovedBy := half * half;
      lastViewerPosition := None;
      viewDistance := 1;
    }

    /** Whether an update around `viewer` goes ahead: always the first time, then only once the viewer is at least the threshold (squared) away from where the last update ran. */
    predicate Moved(viewer: Vec3i): (moved: bool)
      reads this
      ensures lastViewerPosition.None? ==> moved
      ensures lastViewerPosition.Some? ==> (moved <==> SquaredDistance(viewer, lastViewerPosition.value) >= updateIfMovedBy)
      ensures lastViewerPosition == Some(viewer) ==> (moved <==> updateIfMovedBy <= 0)
    {
      lastViewerPosition.None? || SquaredDistance(viewer, lastViewerPosition.value) >= updateIfMovedBy
    }

    /** Whether the model of a terrain entity is hidden: its chunk is gone or disabled, or it has no mesh. */
    function Hidden(model: Model, tile: Tile): (hidden: bool)
      reads this
      requires Valid() && tile.ring < NumberOfRings
      ensures hidden <==> tile.position !in rings[tile.ring] || rings[tile.ring][tile.position].disabled || model.mesh == NullId
    {
      match Get(rings[tile.ring], tile.position)
      case Some(chunk) => chunk.disabled || model.mesh == NullId
      case None => true
    }

    /** Marks every chunk of ring r disabled. */
    method DisableRing(r: nat)
      requires Valid() && r < NumberOfRings
      modifies this`rings
      ensures Valid()
      ensures rings == old(rings)[r := Disabled(old(rings[r]))]
    {
      var pending := rings[r].Keys;
      while pending != {}
        invariant |rings| == NumberOfRings && Keyed(rings)
        invariant pending <= rings[r].Keys == old(rings[r]).Keys
        invariant forall k :: k in rings[r] ==>
          rings[r][k] == if k in pending then old(rings[r])[k] else old(rings[r])[k].(disabled := true)
        invariant forall q :: 0 <= q < NumberOfRings && q != r ==> rings[q] == old(rings[q])
        decreases pending
      {
        var k :| k in pending;
        KeyedUpdate(rings, r, k, rings[r][k].(disabled := true));
        rings := rings[r := rings[r][k := rings[r][k].(disabled := true)]];
        pending := pending - {k};
      }
      assert rings[r] == Disabled(old(rings[r]));
    }

    /** Marks every chunk of every ring disabled. */
    method DisableAll()
      requires Valid()
      modifies this`rings
      ensures Valid()
      ensures |rings| == NumberOfRings && forall r :: 0 <= r < NumberOfRings ==> rings[r] == Disabled(old(rings[r]))
    {
      for r := 0 to NumberOfRings
        invariant Valid()
        invariant forall q :: 0 <= q < r ==> rings[q] == Disabled(old(rings[q]))
        invariant forall q :: r <= q < NumberOfRings ==> rings[q] == old(rings[q])
      {
        DisableRing(r);
      }
    }

    /** Visits one chunk position of ring r: gets or creates its chunk, polygonizes it if dirty, enables it. */
    method VisitKey(r: nat, k: Vec3i, assets: Assets, world: World<Tile>, mc: MarchingCubes, density: DensityAt, ops: NormalOps)
      requires r < NumberOfRings && Ready(assets, world)
      modifies this`rings, assets, world, assets.meshes.Values
      ensures Ready(assets, world) && Grew(assets) && Extended(world)
      ensures forall q :: 0 <= q < NumberOfRings && q != r ==> rings[q] == old(rings[q])
      ensures k in rings[r] && rings[r] == old(rings[r])[k := rings[r][k]]
      ensures Refreshed(Prior(old(rings[r]), k, r), rings[r][k], mc, density)
      ensures forall m :: m in old(assets.meshes.Values) && m !in old(MeshObjects(assets, Prior(rings[r], k, r).mesh)) ==> unchanged(m)
      ensures Spawns(old(Prior(rings[r], k, r)), mc, density) ==>
        world.entities == old(world.entities) + [(Model(rings[r][k].mesh.value, k, Pow2(r), false), Tile(k, r))]
      ensures !Spawns(old(Prior(rings[r], k, r)), mc, density) ==> world.entities == old(world.entities)
    {
      ghost var ids := Unindexed(assets);
      ghost var entities := world.entities;
      var prior := Prior(rings[r], k, r);
      var chunk := Refresh(prior, assets, world, mc, density, ops);
      RefreshedKeepsMesh(prior, chunk, mc, density);
      MeshesInUpdate(rings, ids, Unindexed(assets), r, k, chunk);
      KeyedUpdate(rings, r, k, chunk);
      DrawnVisit(rings, entities, r, k, chunk, world.entities, mc, density);
      ModelledVisit(rings, entities, r, k, chunk, world.entities, mc, density);
      rings := rings[r := rings[r][k := chunk]];
    }

    /** One iteration of the innermost loop: position (x, y, z) is skipped when it lies in the box the previous ring covered, visited otherwise. */
    method VisitCell(w: Walk, xs: seq<int>, x: int, ys: seq<int>, y: int, zs: seq<int>, z: int,
                     ghost base: map<Vec3i, Chunk>, assets: Assets, world: World<Tile>, ops: NormalOps)
      requires w.r < NumberOfRings && Ready(assets, world)
      requires x !in xs && y !in ys && z !in zs
      requires x in w.Xs() && y in w.Ys() && z in w.Zs()
      requires Progress(w, base, rings[w.r], Cursor(xs, x, ys, y, zs))
      modifies this`rings, assets, world, assets.meshes.Values
      ensures Ready(assets, world) && Grew(assets) && Extended(world)
      ensures forall q :: 0 <= q < NumberOfRings && q != w.r ==> rings[q] == old(rings[q])
      ensures Progress(w, base, rings[w.r], Cursor(xs, x, ys, y, zs + [z]))
    {
      var key := Vec3i(x, y, z);
      ghost var current := rings[w.r];
      if !(w.r != 0 && Inside(key, w.inner)) {
        VisitKey(w.r, key, assets, world, w.mc, w.density, ops);
      }
      ProgressStep(w, base, current, Cursor(xs, x, ys, y, zs), Cursor(xs, x, ys, y, zs + [z]), key, rings[w.r]);
    }

    /** The innermost loop of a ring walk: every z of the ring's lattice at fixed x and at the j-th y. */
    method VisitRow(w: Walk, xs: seq<int>, x: int, j: nat,
                    ghost base: map<Vec3i, Chunk>, assets: Assets, world: World<Tile>, ops: NormalOps)
      requires w.r < NumberOfRings && Ready(assets, world)
      requires x !in xs && x in w.Xs() && j < |w.Ys()|
      requires Progress(w, base, rings[w.r], Cursor(xs, x, w.Ys()[..j], 0, []))
      modifies this`rings, assets, world, assets.meshes.Values
      ensures Ready(assets, world) && Grew(assets) && Extended(world)
      ensures forall q :: 0 <= q < NumberOfRings && q != w.r ==> rings[q] == old(rings[q])
      ensures Progress(w, base, rings[w.r], Cursor(xs, x, w.Ys()[..j + 1], 0, []))
    {
      var ys, zs := w.Ys(), w.Zs();
      NotEarlier(ys, j);
      StartRow(w, base, rings[w.r], xs, x, ys[..j], ys[j]);
      for l := 0 to |zs|
        invariant Ready(assets, world) && Grew(assets) && Extended(world)
        invariant forall q :: 0 <= q < NumberOfRings && q != w.r ==> rings[q] == old(rings[q])
        invariant Progress(w, base, rings[w.r], Cursor(xs, x, ys[..j], ys[j], zs[..l]))
      {
        NotEarlier(zs, l);
        VisitCell(w, xs, x, ys[..j], ys[j], zs[..l], zs[l], base, assets, world, ops);
        assert zs[..l] + [zs[l]] == zs[..l + 1];
      }
      assert zs[..|zs|] == zs;
      EndRow(w, base, rings[w.r], xs, x, ys, j);
    }

    /** The middle loop of a ring walk: every y of the ring's lattice at the i-th x. */
    method VisitPlane(w: Walk, i: nat, ghost base: map<Vec3i, Chunk>, assets: Assets, world: World<Tile>, ops: NormalOps)
      requires w.r < NumberOfRings && Ready(assets, world)
      requires i < |w.Xs()|
      requires Progress(w, base, rings[w.r], Cursor(w.Xs()[..i], 0, [], 0, []))
      modifies this`rings, assets, world, assets.meshes.Values
      ensures Ready(assets, world) && Grew(assets) && Extended(world)
      ensures forall q :: 0 <= q < NumberOfRings && q != w.r ==> rings[q] == old(rings[q])
      ensures Progress(w, base, rings[w.r], Cursor(w.Xs()[..i + 1], 0, [], 0, []))
    {
      var xs, ys := w.Xs(), w.Ys();
      NotEarlier(xs, i);
      StartPlane(w, base, rings[w.r], xs[..i], xs[i]);
      for j := 0 to |ys|
        invariant Ready(assets, world) && Grew(assets) && Extended(world)
        invariant forall q :: 0 <= q < NumberOfRings && q != w.r ==> rings[q] == old(rings[q])
        invariant Progress(w, base, rings[w.r], Cursor(xs[..i], xs[i], ys[..j], 0, []))
      {
        VisitRow(w, xs[..i], xs[i], j, base, assets, world, ops);
      }
      assert ys[..|ys|] == ys;
      EndPlane(w, base, rings[w.r], xs, i);
    }

    /**
     * The walk of one ring: x, then y, then z over the ring's lattice in
     * its box, skipping (for rings past the first) the positions inside
     * the box the previous ring covered, visiting every other one.
     */
    method VisitRing(w: Walk, assets: Assets, world: World<Tile>, ops: NormalOps)
      requires w.r < NumberOfRings && Ready(assets, world)
      modifies this`rings, assets, world, assets.meshes.Values
      ensures Ready(assets, world) && Grew(assets) && Extended(world)
      ensures forall q :: 0 <= q < NumberOfRings && q != w.r ==> rings[q] == old(rings[q])
      ensures RingPassed(w, old(rings[w.r]), rings[w.r])
    {
      var xs := w.Xs();
      ghost var base := rings[w.r];
      for i := 0 to |xs|
        invariant Ready(assets, world) && Grew(assets) && Extended(world)
        invariant forall q :: 0 <= q < NumberOfRings && q != w.r ==> rings[q] == old(rings[q])
        invariant Progress(w, base, rings[w.r], Cursor(xs[..i], 0, [], 0, []))
      {
        VisitPlane(w, i, base, assets, world, ops);
      }
      ProgressDone(w, base, rings[w.r], xs);
    }

    /** A terrain entity with its model's disabled flag set as the hide pass sets it. */
    function Hide(e: (Model, Tile)): (h: (Model, Tile))
      reads this
      requires Valid() && e.1.ring < NumberOfRings
      ensures h.1 == e.1 && h.0 == e.0.(disabled := h.0.disabled)
      ensures h.0.disabled == Hidden(e.0, e.1)
    {
      (e.0.(disabled := Hidden(e.0, e.1)), e.1)
    }

    /** The hide pass: every terrain model is hidden unless its chunk is present, enabled and has a mesh. */
    method HideModels(world: World<Tile>)
      requires Valid() && Drawn(rings, world.entities) && Modelled(rings, world.entities)
      modifies world
      ensures Drawn(rings, world.entities) && Modelled(rings, world.entities)
      ensures |world.entities| == |old(world.entities)|
      ensures forall i :: 0 <= i < |world.entities| ==> world.entities[i] == Hide(old(world.entities[i]))
      ensures forall i :: 0 <= i < |world.entities| ==>
        (world.entities[i].0.disabled <==> Hidden(world.entities[i].0, world.entities[i].1))
    {
      for i := 0 to |world.entities|
        invariant |world.entities| == |old(world.entities)|
        invariant forall j :: 0 <= j < i ==> world.entities[j] == Hide(old(world.entities[j]))
        invariant forall j :: i <= j < |world.entities| ==> world.entities[j] == old(world.entities[j])
      {
        var (model, tile) := world.entities[i];
        assert Draws(rings, old(world.entities)[i]);
        var hidden := Hidden(model, tile);
        world.entities := world.entities[i := (model.(disabled := hidden), tile)];
      }
      forall i | 0 <= i < |world.entities|
        ensures Draws(rings, world.entities[i])
      {
        assert Draws(rings, old(world.entities)[i]);
      }
      ModelledKept(rings, rings, old(world.entities), world.entities);
    }

    /** The ring loop of the update: ring after ring, each one's box the previous one's widened by its view extent. */
    method WalkRings(origin: Vec3i, assets: Assets, world: World<Tile>, mc: MarchingCubes, density: DensityAt, ops: NormalOps)
      requires Ready(assets, world)
      modifies this`rings, assets, world, assets.meshes.Values
      ensures Ready(assets, world) && Grew(assets) && Extended(world)
      ensures forall r :: 0 <= r < NumberOfRings ==>
        RingPassed(RingWalk(r, origin, viewDistance, mc, density), old(rings[r]), rings[r])
    {
      var inner := Box(origin, origin);
      for r := 0 to NumberOfRings
        invariant Ready(assets, world) && Grew(assets) && Extended(world)
        invariant inner == InnerBox(r, origin, viewDistance)
        invariant forall q :: 0 <= q < r ==> RingPassed(RingWalk(q, origin, viewDistance, mc, density), old(rings[q]), rings[q])
        invariant forall q :: r <= q < NumberOfRings ==> rings[q] == old(rings[q])
      {
        var scale := Pow2(r);
        var chunkSize := ChunkSize * scale;
        var viewExtent := viewDistance * if r == 0 then 2 * chunkSize else chunkSize;
        var outer := Grow(inner, viewExtent);
        VisitRing(Walk(r, inner, outer, mc, density), assets, world, ops);
        inner := outer;
      }
    }

    /**
     * The terrain update, run every frame. It does nothing unless the
     * viewer has moved far enough since the last update (or there was
     * none); otherwise it records the viewer and runs `Rebuild`.
     */
    method Spawn(viewer: Vec3i, assets: Assets, world: World<Tile>, mc: MarchingCubes, density: DensityAt, ops: NormalOps)
      requires Ready(assets, world)
      modifies this`rings, this`lastViewerPosition, assets, world, assets.meshes.Values
      ensures Ready(assets, world) && Grew(assets)
      ensures !old(Moved(viewer)) ==>
        && rings == old(rings) && lastViewerPosition == old(lastViewerPosition)
        && unchanged(assets, world) && forall m :: m in old(assets.meshes.Values) ==> unchanged(m)
      ensures old(Moved(viewer)) ==> lastViewerPosition == Some(viewer)
      ensures old(Moved(viewer)) ==> forall r :: 0 <= r < NumberOfRings ==>
        RingPassed(RingWalk(r, ChunkOrigin(viewer), viewDistance, mc, density), Disabled(old(rings[r])), rings[r])
      ensures old(Moved(viewer)) ==> |old(world.entities)| <= |world.entities|
      ensures old(Moved(viewer)) ==> forall i :: 0 <= i < |old(world.entities)| ==>
        world.entities[i].1 == old(world.entities[i].1) && world.entities[i].0 == old(world.entities[i].0).(disabled := world.entities[i].0.disabled)
      ensures old(Moved(viewer)) ==> forall i :: 0 <= i < |world.entities| ==>
        (world.entities[i].0.disabled <==> Hidden(world.entities[i].0, world.entities[i].1))
      ensures old(Moved(viewer)) ==> forall i :: 0 <= i < |world.entities| ==>
        (world.entities[i].0.disabled <==>
          !RingWalk(world.entities[i].1.ring, ChunkOrigin(viewer), viewDistance, mc, density).Reaches(world.entities[i].1.position))
    {
      if lastViewerPosition.Some? && SquaredDistance(viewer, lastViewerPosition.value) < updateIfMovedBy {
        return;
      }
      lastViewerPosition := Some(viewer);
      Rebuild(viewer, assets, world, mc, density, ops);
    }

    /**
     * The body of the update once the viewer has moved: disables every
     * chunk, walks the three rings around the viewer's chunk origin (each
     * ring's box the previous one's widened by its view extent), and sets
     * every terrain model's hidden flag from its chunk.
     */
    method Rebuild(viewer: Vec3i, assets: Assets, world: World<Tile>, mc: MarchingCubes, density: DensityAt, ops: NormalOps)
      requires Ready(assets, world)
      modifies this`rings, assets, world, assets.meshes.Values
      ensures Ready(assets, world) && Grew(assets)
      ensures forall r :: 0 <= r < NumberOfRings ==>
        RingPassed(RingWalk(r, ChunkOrigin(viewer), viewDistance, mc, density), Disabled(old(rings[r])), rings[r])
      ensures |old(world.entities)| <= |world.entities|
      ensures forall i :: 0 <= i < |old(world.entities)| ==>
        world.entities[i].1 == old(world.entities[i].1) && world.entities[i].0 == old(world.entities[i].0).(disabled := world.entities[i].0.disabled)
      ensures forall i :: 0 <= i < |world.entities| ==>
        (world.entities[i].0.disabled <==> Hidden(world.entities[i].0, world.entities[i].1))
      ensures forall i :: 0 <= i < |world.entities| ==>
        (world.entities[i].0.disabled <==>
          !RingWalk(world.entities[i].1.ring, ChunkOrigin(viewer), viewDistance, mc, density).Reaches(world.entities[i].1.position))
    {
      DisableAll();
      MeshesInDisabled(old(rings), rings, Unindexed(assets));
      DrawnKept(old(rings), rings, world.entities);
      ModelledKept(old(rings), rings, world.entities, world.entities);
      WalkRings(ChunkOrigin(viewer), assets, world, mc, density, ops);
      HideModels(world);
      HiddenIffUnreached(old(rings), rings, world.entities, Unindexed(assets), ChunkOrigin(viewer), viewDistance, mc, density);
    }
  }
}

=== FILE: wrappers.dfy ===
/** Rust's `Option`, as the model uses it. */
module Wrappers {

  datatype Option<+T> = None | Some(value: T)

  /** `HashMap::get`. */
  function Get<K, V>(m: map<K, V>, k: K): (r: Option<V>)
    ensures r.Some? <==> k in m
    ensures r.Some? ==> r.value == m[k]
  {
    if k in m then Some(m[k]) else None
  }
}
